=== FILE: README.md ===
# Typing-speed trainer core, in Dafny

This project models the logic of a browser typing trainer for C++ source. It
fetches a `.cpp` file and removes its `//` comments. The user then retypes the
text against the clock while it is drawn as coloured character cells. At the
end of a run the trainer shows gross and net words per minute, accuracy, error
rate and a speed rank, and it keeps one best record per file.

Everything is pure functions over immutable values:

| module | file | what it models |
|---|---|---|
| `Wrappers` | `wrappers.dfy` | the `Option` type |
| `Text` | `text.dfy` | trimEnd, split/join, the `replaceAll` scan, CRLF normalisation, tab expansion, `countLines` |
| `Html` | `html.dfy` | `escapeHtml`, plus an inverse (`Unescape`) as its partner |
| `Comments`, `CommentsFacts` | `comments.dfy` | `stripLineCommentsCpp`, the whole `fetchRaw` preprocessing, and the facts about them |
| `Stats` | `stats.dfy` | `calcStats` |
| `Rank` | `rank.dfy` | `getRank`, as a first-match threshold table over a tier datatype |
| `Best` | `best.dfy` | the best-score merge of `finishRun`, and a lexicographic key as its reference order |
| `Overlay` | `overlay.dfy` | `renderOverlay`, as a view datatype and its HTML rendering |
| `Countdown` | `countdown.dfy` | `formatCountdown` and `getSelectedCountdownSeconds` |
| `Session` | `session.dfy` | the run state machine: start, finish, reset, the countdown frame, input, the Tab key, file loading, timer changes, list reloads |

How time and the environment enter the model:
- The clock is a parameter. Every transition that needs time receives the seconds elapsed since the run started.
- Local storage is a map from file name to record.
- A fetched file is its text.
- Each timer choice carries what the selector and the custom field hold at that moment.

## Model

| member | source | states |
|---|---|---|
| `Text.ReplaceAll` | app.js:404 | `replaceAll` with a one-character pattern is the same as replacing each occurrence of that character on its own; a text in which the pattern does not occur comes back unchanged |
| `Text.TrimEnd` | app.js:135 | the result is a prefix of the input; it ends in a non-whitespace character or is empty; everything removed is whitespace |
| `Text.ExpandTabs` | app.js:408 | the result is the text with each tab replaced by four spaces and every other character kept in order; so no tab survives, the length grows by three per tab, and line feeds are untouched |
| `Text.NormalizeNewlines` | app.js:404 | `replaceAll("\r\n", "\n")` deletes exactly the carriage returns that a line feed directly follows, and keeps every other character in order |
| `Text.CrLfScanDropsCr` | app.js:103 | the left-to-right scan for `"\r\n"` agrees, for every text, with deleting each carriage return that a line feed follows |
| `Text.NormalizeKeepsLineFeeds` | app.js:404 | turning CRLF into LF keeps the number of line feeds |
| `Text.Split` | app.js:103 | `split` with a one-character separator never gives an empty list, and no piece holds the separator |
| `Text.Join` | app.js:146 | `join` of no lines is empty; otherwise the result starts with the first line, and lines that hold no separator are joined by exactly one separator between each pair |
| `Text.SplitCount` | app.js:83 | `split("\n")` gives one piece more than there are separators |
| `Text.JoinSplit` | app.js:103 | joining the pieces of a split gives back the text |
| `Text.SplitJoin` | app.js:146 | splitting lines that hold no separator after joining them gives back the lines |
| `Text.CountLines` | app.js:81-84 | the empty text has 0 lines; any other text has one more line than it has line feeds |
| `Html.EscapeHtml` | app.js:72-79 | the output holds no `<`, `>`, `"` or `'`; the five chained replacements equal escaping each character on its own |
| `Html.ChainIsPerCharacter` | app.js:73-78 | the chained `replaceAll` calls, `&` first, act on each character independently |
| `Html.UnescapeEscape` | app.js:72-79 | escaping loses nothing: decoding the five entities gives back the input |
| `Comments.FindCut` | app.js:110-137 | the scan finds the first position where `//` occurs outside any string or character literal and not after a backslash, or reports that there is none |
| `Comments.StripLine` | app.js:105-140 | a line with no comment is kept as is; otherwise it is cut at the first comment start and trimmed at the end; the result is always a prefix of the line |
| `Comments.DropTrailingBlank` | app.js:142-144 | the kept lines are a prefix of the input lines; the last kept line is not blank; every dropped line is blank |
| `Comments.LoadedText` | app.js:398-411 | a fetched file, once normalised, stripped and tab-expanded, contains no tab |
| `Comments.CleanLines` | app.js:105-144 | of the lines it is given, each kept line is the stripped form of the line at the same index; no line is invented; every dropped line strips to blank; the last kept line is not blank; no line feed appears when the input lines hold none |
| `Comments.CleanedLines` | app.js:103-144 | the lines of the text after CRLF normalisation and splitting, each stripped of its comment, with only blank lines dropped at the end; the last kept line is not blank, and no kept line holds a line feed |
| `Comments.StripComments` | app.js:102-147 | splitting the result at line feeds gives back exactly the kept lines, so it never ends with a blank line; when no line is kept the result is empty |
| `CommentsFacts.LinesNeverGrow` | app.js:102-147 | stripping never increases the line count |
| `CommentsFacts.LoadedTextNeverGrows` | app.js:403-410 | the whole preprocessing of a fetched file never increases the line count |
| `CommentsFacts.QuotedSlashesKept` | app.js:124-136 | a `//` inside a string or character literal, before any comment, survives stripping |
| `CommentsFacts.StripsSampleLine` | app.js:98-101 | on `x = "http://a";  // comment` the quoted `//` is kept and the real comment is removed, trailing spaces included |
| `Stats.MatchCount` | app.js:158-161 | the number of matching positions never exceeds the positions compared |
| `Stats.MatchCountIsCardinality` | app.js:158-161 | the count is the size of the set of positions where both texts agree |
| `Stats.CalcStats` | app.js:149-185 | correct is the number of positions where the two texts agree, up to the shorter length; correct + incorrect = typed length; incorrect is the mismatches plus the overflow past the target. Gross and net WPM times the minutes (at least 0.001) times 5 give the typed and the correct character counts. Once something is typed, accuracy and error rate are correct and incorrect as a percentage of the typed length; with nothing typed they are 100 and 0. Progress is the typed length, capped at the target length, as a percentage of the target length, and 0 for an empty target |
| `Stats.EmptyTypedIsPerfect` | app.js:170-171 | with nothing typed, accuracy is 100, error rate 0 and speed 0 |
| `Stats.AccuracyAndErrorRate` | app.js:170-171 | both lie in [0, 100] and add up to 100 once something is typed; accuracy is 100 exactly when there is no error |
| `Stats.ProgressBounds` | app.js:172 | progress is 0 on an empty target, else in [0, 100], and 100 exactly when the typed text reaches the target's length |
| `Stats.ProgressMonotone` | app.js:172 | typing more never lowers progress |
| `Stats.NetAtMostGross` | app.js:166-169 | 0 ≤ net WPM ≤ gross WPM |
| `Rank.FirstMatch` | app.js:187-194 | the first matching threshold row decides the tier; with no matching row the tier is Turtle |
| `Rank.GetRank` | app.js:187-194 | the tier of the first matching row of the table, which is the chain of tests: Godlike needs net ≥ 85 and accuracy ≥ 97; then Beast ≥ 70, Fast ≥ 55, Dev ≥ 40, Junior ≥ 25; Turtle exactly when no row matches |
| `Rank.TableIsClosedForm` | app.js:188-193 | walking the threshold table row by row gives the same tier as the chain of tests |
| `Rank.FastButInaccurate` | app.js:188-189 | net ≥ 85 with accuracy below 97 ranks Beast |
| `Rank.RankMonotoneInNet` | app.js:187-194 | a higher net speed never lowers the tier |
| `Rank.RankMonotoneInAccuracy` | app.js:188 | higher accuracy never lowers the tier |
| `Best.Merge` | app.js:368-378 | the kept record is the current one or the stored one; with no stored record it is the current one |
| `Best.Better` | app.js:372-375 | the three-way test is exactly "(net, accuracy, −time) is lexicographically greater"; so it never holds for a tie or both ways, and holds one way or the other whenever the keys differ |
| `Best.MergeReplacesIffGreater` | app.js:372-376 | the new record replaces the stored one if and only if its key is strictly greater |
| `Best.MergeNeverWorse` | app.js:368-378 | the kept record ranks at least as high as the stored record and the current record |
| `Best.MergeTieKeepsStored` | app.js:372-376 | a record that ties on net, accuracy and time leaves the stored one in place |
| `Best.MergeKeyOrderIndependent` | app.js:368-378 | of two results, the kept key is the same whichever was stored first |
| `Best.AtLeastTransitive` | app.js:368-378 | "ranks at least as high" chains, so a series of merges never loses ground |
| `Overlay.CellAt` | app.js:205-211 | a cell shows its target character; it is pending exactly when nothing is typed at its position, ok exactly when the typed character matches, bad exactly when it differs; it carries the cursor exactly at the typing position of an unfinished run |
| `Overlay.RenderOverlay` | app.js:196-222 | the placeholder appears exactly for an empty target; otherwise there is one cell per target character, and the overflow run appears exactly when the typed text is longer than the target and holds the typed text past the target |
| `Overlay.CellsClassify` | app.js:201-211 | each cell shows its target character; it is pending exactly when not yet typed, and otherwise ok exactly when the typed character matches |
| `Overlay.CursorPositions` | app.js:211 | the cursor marks exactly the cell at the typed length, and only while the run is not finished |
| `Overlay.OverlayAgreesWithStats` | app.js:149-222 | the ok cells count the correct characters; the bad cells plus the overflow count the incorrect ones |
| `Overlay.ToHtml` | app.js:204-220 | every `<` and `>` in the markup belongs to a span tag (two of each per span), since the content is escaped |
| `Countdown.NatToString` | app.js:92-93 | `String(n)` is a non-empty run of decimal digits with no leading zero, at most two digits below 100 |
| `Countdown.NatToStringRoundTrip` | app.js:92-93 | the decimal rendering of a number reads back as that number |
| `Countdown.PadStart` | app.js:92-93 | `padStart` adds fill characters in front, just enough to reach the width |
| `Countdown.AtLeastTwoDigits` | app.js:92-93 | a zero-padded field reads back as its value; it has exactly two digits below 100 and no leading zero above |
| `Countdown.WholeSeconds` | app.js:91 | the whole seconds are the floor of the time, with negative times counted as 0 |
| `Countdown.FormatCountdown` | app.js:90-95 | the text reads as `mm:ss`, the whole minutes and the remaining seconds of the clamped, floored time; the minutes field has exactly two digits below 100 minutes and no leading zero above |
| `Countdown.SelectedSeconds` | app.js:231-238 | a preset is taken as is; a custom value is used when it is a number ≥ 10, else 60 |
| `Session.JsRound` | app.js:345-346 | `Math.round` gives the integer within half a unit, halves rounding up |
| `Session.Clamp` | app.js:347-348 | `Math.max(lo, Math.min(hi, x))` lies in [lo, hi]: x itself inside, lo below, hi above |
| `Session.RoundTo` | app.js:366 | a value rounded with `toFixed` is a whole number of units of its last kept decimal, lies within half such a unit of the value, and keeps its sign; the half-open window holds exactly one such multiple, so these fix the result |
| `Session.CurrentRecord` | app.js:345-366 | net and gross are whole, never below 0, within half a unit of a non-negative speed, and net ≤ gross whenever the net speed is at most the gross speed; accuracy lies in [0, 100], has at most one decimal and lies within 0.05 of an accuracy already in range; the time has at most two decimals and lies within 0.005 of a non-negative elapsed time |
| `Session.Initial` | app.js:589 | the page starts consistent, with no file and the text area disabled |
| `Session.StartRun` | app.js:318-333 | without a text, or once started, nothing happens; otherwise the run is running and accepts input; either way only the started, finished and input-enabled flags can change |
| `Session.FinishRun` | app.js:335-383 | only a running run finishes, and it stops input. Net and gross are the rounded speeds floored at 0, so net ≤ gross. Accuracy and error rate are clamped to [0, 100]. The record keeps accuracy to one decimal and time to two. The rank is the table's tier for net and accuracy. The file's stored record becomes the merge of the old one and this run's, so it never gets worse and a tie keeps the old one. Other files' records are untouched |
| `Session.ResetRun` | app.js:248-282 | the run and the typed text are cleared and the countdown restarts from the selector; keeping the file keeps its text and enables input for a loaded text; otherwise the file is unloaded and input disabled |
| `Session.Tick` | app.js:284-316 | only a running run ticks, and the time left becomes max(0, total − elapsed). When that reaches 0, the frame is exactly `finishRun` on the updated state. Otherwise only the time left changes and the store is untouched |
| `Session.OnInput` | app.js:517-535 | a disabled text area takes nothing. Otherwise the typed text is the new value with tabs expanded, and the run starts exactly when it is loaded and not yet started or finished. The text, file, countdown and finished flag stay as they were |
| `Session.LoadFile` | app.js:468-490 | an empty path changes nothing; otherwise the text becomes the target, the run is reset, input is enabled, and the countdown starts full at the length the selector gives |
| `Session.ChangeTimer` | app.js:538-549 | the countdown follows the selector only while no run has started, and nothing else changes |
| `Session.Step` | app.js:517-576 | every handler keeps the session consistent; no stored file is forgotten; only the current file's record may change, and it never gets worse |
| `Session.Run` | app.js:248-383 | over any sequence of events the session stays consistent and no stored best record ever gets worse |
| `Session.FinishedRunIsFrozen` | app.js:284-383 | after a finish, input, the Tab key, start, finish and frames change nothing |
| `Session.OnTabKey` | app.js:505-515 | four spaces replace the selection, with the text before and after it kept; nothing else changes, so the run does not start; a disabled text area takes no keys |
| `Session.TabDoesNotStartButInputDoes` | app.js:505-534 | on a loaded, idle text an input event starts the run, while the Tab key types four spaces without starting it |
| `Session.FinishIdempotent` | app.js:336 | finishing a second time changes nothing and shows no new result |
| `Session.TickFinishesAtZero` | app.js:291-313 | a running run finishes on a frame exactly when the elapsed time reaches the countdown length |
| `Session.ResetThenStart` | app.js:565-576 | reset followed by start runs a fresh attempt on the same text with the full countdown |
| `Session.FirstInputStarts` | app.js:532-534 | the first input on a loaded, idle text starts the run |

## Left out

- The DOM and its text output are left out: element text, `innerHTML`, focus, scroll sync, the help modal and the result box's visibility. `formatSeconds` and the live statistics panel of `updateLoop` only format numbers for display.
- The network is left out. That covers `fetchJson`, the GitHub tree listing, the `.cpp` filter with its `localeCompare` sort, and the file cache. A loaded file enters the model as its text.
- `pickRandomFile` is left out because it depends on `Math.random`. Choosing a file is a `Load` event with any path.
- `localStorage` and JSON are a map of `Record` values. A stored value that parses but is not a record is not modelled. Neither is one that fails to parse, which the source ignores and then overwrites.
- `performance.now` and `requestAnimationFrame` are left out. The elapsed seconds are a parameter of `FinishRun`, `Tick` and the `FinishClick`/`Frame` events.
- Session.Tick: when the countdown ends, the source reads the clock again inside `finishRun`. The model uses the frame's elapsed time for both.
- Session.OnTabKey: the selection bounds are event parameters. Where the caret lands after an edit is not tracked, here or in `OnInput`.
- Session.LoadFile: a load is one atomic step that always succeeds. In the source, `loadFileByPath` sets the file name (app.js:471) before it awaits the fetch (app.js:476). A fetch that fails therefore leaves the new name on the old text and on any running run. A run that finishes while the fetch is pending stores its record under the new file's key (app.js:364). This interleaving is not modelled, because the network is outside the model.
- Text.ReplaceAll: for a pattern longer than one character the contract states only that a text without an occurrence comes back unchanged. The one such use, the CRLF pattern, is pinned by `Text.NormalizeNewlines` against an independent reference.
- Emoji and colours of the rank badge are left out; `Rank` has the tiers only.
- Characters are modelled as Unicode scalar values. JavaScript strings count UTF-16 code units, so lengths and positions differ for characters outside the Basic Multilingual Plane.
- Floating point is left out. Speeds and percentages are exact reals. `Math.round` is floor of x + 0.5. `Number(x.toFixed(d))` is decimal rounding on the exact value, with halves rounded away from zero. Binary representation effects of `toFixed` are not modelled.
- Countdown.SelectedSeconds: a preset value that `parseInt` cannot read (NaN) is not representable, because the selector's preset options are integers.
- The timer variant without a countdown is out of scope: the selector always yields a number of seconds.

=== FILE: best.dfy ===
/**
 * The best-score rule of `finishRun`: per file one stored record, replaced
 * only by a strictly better result, where "better" means higher net speed,
 * then higher accuracy, then shorter time.
 */
module Best {
  import opened Wrappers

  /** A stored best result: net and gross WPM, accuracy in percent and the
      time in seconds, as the source stores them after rounding. */
  datatype Record = Record(net: int, gross: int, acc: real, time: real)

  /** The comparison exactly as the source writes it. It is the strict
      lexicographic order on the keys (net, accuracy, -time): never true of a
      tie, never true both ways, and one way or the other whenever the keys
      differ. */
  predicate Better(cur: Record, prev: Record)
    ensures Better(cur, prev) <==> LexLess(Key(prev), Key(cur))
    ensures Key(cur) == Key(prev) ==> !Better(cur, prev)
    ensures Better(cur, prev) ==> !LexLess(Key(cur), Key(prev))
    ensures !Better(cur, prev) ==> Key(cur) == Key(prev) || LexLess(Key(cur), Key(prev))
  {
    KeyOrderSpelledOut(prev, cur);
    LexLessIrreflexive(Key(cur));
    LexLessTotal(Key(prev), Key(cur));
    LexLessAsymmetric(Key(prev), Key(cur));
    BetterAsWritten(cur, prev)
  }

  predicate BetterAsWritten(cur: Record, prev: Record) {
    || cur.net > prev.net
    || (cur.net == prev.net && cur.acc > prev.acc)
    || (cur.net == prev.net && cur.acc == prev.acc && cur.time < prev.time)
  }

  /** The record kept after a finished run: the current result when there is
      no readable previous record or when it is better, else the previous one. */
  function Merge(prev: Option<Record>, cur: Record): (best: Record)
    ensures best == cur || (prev.Some? && best == prev.value)
    ensures prev.None? ==> best == cur
  {
    match prev
    case None => cur
    case Some(p) => if Better(cur, p) then cur else p
  }

  /** Independent reference order: the ranking key (net, accuracy, -time)
      compared lexicographically. */
  function Key(r: Record): seq<real> {
    [r.net as real, r.acc, -r.time]
  }

  /** Strict lexicographic order on keys of equal length. */
  predicate LexLess(a: seq<real>, b: seq<real>)
    requires |a| == |b|
  {
    |a| > 0 && (a[0] < b[0] || (a[0] == b[0] && LexLess(a[1..], b[1..])))
  }

  lemma {:induction false} LexLessIrreflexive(a: seq<real>)
    ensures !LexLess(a, a)
  {
    if |a| > 0 {
      LexLessIrreflexive(a[1..]);
    }
  }

  /** Any two keys of equal length are equal or ordered one way or the other. */
  lemma {:induction false} LexLessTotal(a: seq<real>, b: seq<real>)
    requires |a| == |b|
    ensures a == b || LexLess(a, b) || LexLess(b, a)
  {
    if |a| > 0 && a[0] == b[0] {
      LexLessTotal(a[1..], b[1..]);
      if a[1..] == b[1..] {
        assert a == [a[0]] + a[1..] && b == [b[0]] + b[1..];
      }
    }
  }

  lemma {:induction false} LexLessAsymmetric(a: seq<real>, b: seq<real>)
    requires |a| == |b|
    ensures LexLess(a, b) ==> !LexLess(b, a)
  {
    if |a| > 0 && a[0] == b[0] {
      LexLessAsymmetric(a[1..], b[1..]);
    }
  }

  lemma {:induction false} LexLessTransitive(a: seq<real>, b: seq<real>, c: seq<real>)
    requires |a| == |b| == |c| && LexLess(a, b) && LexLess(b, c)
    ensures LexLess(a, c)
  {
    if a[0] == b[0] && b[0] == c[0] {
      LexLessTransitive(a[1..], b[1..], c[1..]);
    }
  }

  /** The key order unfolded over its three components. */
  lemma KeyOrderSpelledOut(a: Record, b: Record)
    ensures LexLess(Key(a), Key(b)) <==> BetterAsWritten(b, a)
  {
    var x, y := Key(a), Key(b);
    assert x[1..][1..][1..] == [] && y[1..][1..][1..] == [];
    assert LexLess(x, y) <==> x[0] < y[0] || (x[0] == y[0] && LexLess(x[1..], y[1..]));
    assert LexLess(x[1..], y[1..]) <==> x[1] < y[1] || (x[1] == y[1] && LexLess(x[1..][1..], y[1..][1..]));
    assert LexLess(x[1..][1..], y[1..][1..]) <==> x[2] < y[2];
  }

  /** The new result replaces the stored one exactly when its key is greater. */
  lemma MergeReplacesIffGreater(p: Record, cur: Record)
    ensures Merge(Some(p), cur) == if LexLess(Key(p), Key(cur)) then cur else p
  {
  }

  /** The kept record ranks at least as high as each of the two inputs. */
  lemma MergeNeverWorse(prev: Option<Record>, cur: Record)
    ensures !LexLess(Key(Merge(prev, cur)), Key(cur))
    ensures prev.Some? ==> !LexLess(Key(Merge(prev, cur)), Key(prev.value))
  {
    LexLessIrreflexive(Key(cur));
    if prev.Some? {
      var p := prev.value;
      LexLessIrreflexive(Key(p));
      if Better(cur, p) {
        LexLessAsymmetric(Key(p), Key(cur));
      } else {
        LexLessTotal(Key(p), Key(cur));
      }
    }
  }

  /** A result that ties the stored record on every ranking component does
      not replace it. */
  lemma MergeTieKeepsStored(p: Record, cur: Record)
    requires Key(cur) == Key(p)
    ensures Merge(Some(p), cur) == p
  {
    LexLessIrreflexive(Key(p));
  }

  /** Whichever of two results is stored first, the kept key is the same: the
      greater of the two. */
  lemma MergeKeyOrderIndependent(a: Record, b: Record)
    ensures Key(Merge(Some(a), b)) == Key(Merge(Some(b), a))
  {
    LexLessTotal(Key(a), Key(b));
    if LexLess(Key(a), Key(b)) {
      LexLessAsymmetric(Key(a), Key(b));
    } else if LexLess(Key(b), Key(a)) {
      LexLessAsymmetric(Key(b), Key(a));
    }
  }

  /** `a` ranks at least as high as `b`. */
  predicate AtLeast(a: Record, b: Record) {
    !LexLess(Key(a), Key(b))
  }

  /** Ranking at least as high is a preorder: a record keeps its rank, and
      a chain of "never worse" steps is never worse overall. */
  lemma AtLeastReflexive(a: Record)
    ensures AtLeast(a, a)
  {
    LexLessIrreflexive(Key(a));
  }

  lemma AtLeastTransitive(a: Record, b: Record, c: Record)
    requires AtLeast(c, b) && AtLeast(b, a)
    ensures AtLeast(c, a)
  {
    LexLessTotal(Key(a), Key(b));
    LexLessTotal(Key(b), Key(c));
    if Key(a) == Key(b) {
    } else if Key(b) == Key(c) {
    } else {
      LexLessTransitive(Key(a), Key(b), Key(c));
      LexLessAsymmetric(Key(a), Key(c));
    }
  }

  /** Worked examples against the stored record {net 50, accuracy 95.0,
      time 60.0}: a higher net wins, then a higher accuracy, then a shorter
      time. */
  lemma MergeExamples()
    ensures var stored := Record(50, 60, 95.0, 60.0);
      && Merge(Some(stored), Record(55, 70, 90.0, 70.0)).net == 55
      && Merge(Some(stored), Record(50, 62, 96.0, 65.0)).acc == 96.0
      && Merge(Some(stored), Record(50, 61, 95.0, 55.0)).time == 55.0
  {
  }
}

=== FILE: comments.dfy ===
/**
 * `stripLineCommentsCpp`: removes `//` line comments from C++ source, one line
 * at a time, leaving `//` alone inside string and character literals, then
 * drops trailing blank lines. `LoadedText` is the whole preprocessing a
 * fetched file goes through before it becomes the text to type.
 */
module Comments {
  import opened Wrappers
  import opened Text

  /** The three flags of the per-line scanner. */
  datatype ScanState = ScanState(inString: bool, inChar: bool, escaped: bool)

  const Fresh := ScanState(false, false, false)

  /** How one character that does not start a comment moves the flags: an
      escaped character only clears the escape; a backslash sets it; a double
      quote outside a character literal toggles the string flag; a single
      quote outside a string literal toggles the character flag. */
  function Step(st: ScanState, c: char): ScanState {
    if st.escaped then st.(escaped := false)
    else if c == '\\' then st.(escaped := true)
    else if !st.inChar && c == '"' then st.(inString := !st.inString)
    else if !st.inString && c == '\'' then st.(inChar := !st.inChar)
    else st
  }

  /** The flags once the scanner has read `line[..i]`. */
  function StateAt(line: string, i: nat): ScanState
    requires i <= |line|
  {
    if i == 0 then Fresh else Step(StateAt(line, i - 1), line[i - 1])
  }

  /** Position `i` starts a comment: `//` read outside any literal and not
      right after a backslash. */
  predicate CutsAt(line: string, i: nat) {
    && i + 1 < |line|
    && line[i] == '/' && line[i + 1] == '/'
    && var st := StateAt(line, i);
       !st.escaped && !st.inString && !st.inChar
  }

  predicate NoCutBefore(line: string, k: nat) {
    forall j: nat :: j < k ==> !CutsAt(line, j)
  }

  /** The scanning loop from position `i` with flags `st`: the first position
      at or after `i` where a comment starts, if any. */
  function FindCut(line: string, i: nat, st: ScanState): (r: Option<nat>)
    requires i <= |line| && st == StateAt(line, i)
    ensures r.Some? ==> i <= r.value && CutsAt(line, r.value)
    ensures r.Some? ==> forall j: nat :: i <= j < r.value ==> !CutsAt(line, j)
    ensures r.None? ==> forall j: nat :: i <= j < |line| ==> !CutsAt(line, j)
    decreases |line| - i
  {
    if i == |line| then None
    else
      var c := line[i];
      var next := if i + 1 < |line| then Some(line[i + 1]) else None;
      if st.escaped then FindCut(line, i + 1, st.(escaped := false))
      else if c == '\\' then FindCut(line, i + 1, st.(escaped := true))
      else if !st.inChar && c == '"' then FindCut(line, i + 1, st.(inString := !st.inString))
      else if !st.inString && c == '\'' then FindCut(line, i + 1, st.(inChar := !st.inChar))
      else if !st.inString && !st.inChar && c == '/' && next == Some('/') then Some(i)
      else FindCut(line, i + 1, st)
  }

  /** One line after comment removal: unchanged when no comment starts on
      it, otherwise the text before the first comment with trailing
      whitespace removed. */
  function StripLine(line: string): (r: string)
    ensures r <= line
    ensures NoCutBefore(line, |line|) ==> r == line
    ensures forall i: nat :: CutsAt(line, i) && NoCutBefore(line, i) ==> r == TrimEnd(line[..i])
  {
    match FindCut(line, 0, Fresh)
    case None => line
    case Some(i) => TrimEnd(line[..i])
  }

  /** Drops blank lines from the end of the list: what remains is a prefix
      whose last line (if any) is not blank, and every dropped line is blank. */
  function DropTrailingBlank(lines: seq<string>): (r: seq<string>)
    ensures r <= lines
    ensures |r| == 0 || !IsBlank(r[|r| - 1])
    ensures forall i :: |r| <= i < |lines| ==> IsBlank(lines[i])
  {
    if |lines| == 0 || !IsBlank(lines[|lines| - 1]) then lines
    else DropTrailingBlank(lines[..|lines| - 1])
  }

  /** No line of `lines` holds a line feed. */
  predicate NoLineFeed(lines: seq<string>) {
    forall i :: 0 <= i < |lines| ==> '\n' !in lines[i]
  }

  /** The lines of `text` after comment removal, before they are joined: every
      kept line is the stripped form of the input line at the same position,
      no line is invented, and only blank lines are dropped, all at the end. */
  function CleanedLines(text: string): (r: seq<string>)
    ensures var lines := Split(NormalizeNewlines(text), '\n');
      && |r| <= |lines|
      && (forall i :: 0 <= i < |r| ==> r[i] == StripLine(lines[i]))
      && (forall i :: |r| <= i < |lines| ==> IsBlank(StripLine(lines[i])))
    ensures |r| == 0 || !IsBlank(r[|r| - 1])
    ensures NoLineFeed(r)
  {
    CleanLines(Split(NormalizeNewlines(text), '\n'))
  }

  /** The comment-free lines of an already split text, trailing blanks dropped. */
  function CleanLines(lines: seq<string>): (r: seq<string>)
    ensures |r| <= |lines|
    ensures forall i :: 0 <= i < |r| ==> r[i] == StripLine(lines[i])
    ensures forall i :: |r| <= i < |lines| ==> IsBlank(StripLine(lines[i]))
    ensures |r| == 0 || !IsBlank(r[|r| - 1])
    ensures NoLineFeed(lines) ==> NoLineFeed(r)
  {
    var stripped := StripEach(lines);
    DroppedAreBlank(lines, stripped);
    var r := DropTrailingBlank(stripped);
    NoLineFeedPrefix(r, stripped);
    KeptAreStripped(lines, stripped, r);
    r
  }

  /** Every line stripped on its own; stripping adds no line feed. */
  function StripEach(lines: seq<string>): (r: seq<string>)
    ensures |r| == |lines|
    ensures forall i :: 0 <= i < |r| ==> r[i] == StripLine(lines[i])
    ensures NoLineFeed(lines) ==> NoLineFeed(r)
  {
    if |lines| == 0 then []
    else
      var rest := StripEach(lines[1..]);
      assert NoLineFeed(lines) ==> NoLineFeed(lines[1..]) && StripLine(lines[0]) <= lines[0];
      [StripLine(lines[0])] + rest
  }

  /** The first lines of line-feed-free lines hold no line feed either. */
  lemma NoLineFeedPrefix(a: seq<string>, b: seq<string>)
    requires a <= b
    ensures NoLineFeed(b) ==> NoLineFeed(a)
  {
    assert forall i :: 0 <= i < |a| ==> a[i] == b[i];
  }

  /** The first lines of the stripped lines are the stripped first lines. */
  lemma KeptAreStripped(lines: seq<string>, stripped: seq<string>, kept: seq<string>)
    requires |stripped| == |lines|
    requires forall i :: 0 <= i < |lines| ==> stripped[i] == StripLine(lines[i])
    requires kept <= stripped
    ensures forall i :: 0 <= i < |kept| ==> kept[i] == StripLine(lines[i])
  {
    forall i | 0 <= i < |kept|
      ensures kept[i] == StripLine(lines[i])
    {
      assert kept[i] == stripped[i];
    }
  }

  /** The lines `DropTrailingBlank` drops are the blank ones at the end. */
  lemma DroppedAreBlank(lines: seq<string>, stripped: seq<string>)
    requires |stripped| == |lines|
    requires forall i :: 0 <= i < |lines| ==> stripped[i] == StripLine(lines[i])
    ensures forall i :: |DropTrailingBlank(stripped)| <= i < |lines| ==> IsBlank(StripLine(lines[i]))
  {
    var kept := DropTrailingBlank(stripped);
    forall i | |kept| <= i < |lines|
      ensures IsBlank(StripLine(lines[i]))
    {
      assert IsBlank(stripped[i]);
    }
  }

  /** `stripLineCommentsCpp`: the kept lines joined by line feeds. Splitting
      the result at line feeds gives back exactly those lines, so it never
      ends in a blank line; with no line kept it is empty. */
  function StripComments(text: string): (r: string)
    ensures |CleanedLines(text)| > 0 ==> Split(r, '\n') == CleanedLines(text)
    ensures CleanedLines(text) == [] ==> r == []
    ensures r == [] || !IsBlank(Split(r, '\n')[|Split(r, '\n')| - 1])
  {
    var cleaned := CleanedLines(text);
    var r := Join(cleaned, '\n');
    if |cleaned| > 0 then
      SplitJoin(cleaned, '\n');
      assert Split(r, '\n') == cleaned;
      assert !IsBlank(cleaned[|cleaned| - 1]);
      r
    else
      r
  }

  /** What `fetchRaw` makes of a downloaded file: CRLF normalized, comments
      stripped, tabs expanded to four spaces. */
  function LoadedText(raw: string): (r: string)
    ensures '\t' !in r
  {
    ExpandTabs(StripComments(NormalizeNewlines(raw)))
  }
}

module CommentsFacts {
  import opened Wrappers
  import opened Text
  import opened Comments

  /** Comment removal never adds a line: the stripped text has at most as many
      lines as the text it came from. */
  lemma LinesNeverGrow(text: string)
    ensures CountLines(StripComments(text)) <= CountLines(text)
  {
    var normalized := NormalizeNewlines(text);
    var lines := Split(normalized, '\n');
    var cleaned := CleanedLines(text);
    var r := StripComments(text);
    if |r| > 0 {
      assert |cleaned| > 0;
      SplitCount(r, '\n');
      SplitCount(normalized, '\n');
      NormalizeKeepsLineFeeds(text);
    }
  }

  /** The whole preprocessing of a fetched file never adds a line either. */
  lemma LoadedTextNeverGrows(raw: string)
    ensures CountLines(LoadedText(raw)) <= CountLines(raw)
  {
    var n := NormalizeNewlines(raw);
    var s := StripComments(n);
    LinesNeverGrow(n);
    NormalizeKeepsLineFeeds(raw);
    if |raw| == 0 {
      assert n == [];
    }
    if |n| > 0 {
      assert |raw| > 0;
    }
    if |s| > 0 {
      assert |ExpandTabs(s)| >= |s|;
    } else {
      assert ExpandTabs(s) == ReplaceAll(s, "\t", "    ");
    }
  }

  /** Trimming the end keeps everything up to a non-whitespace character. */
  lemma TrimEndKeeps(s: string, j: nat)
    requires j < |s| && !IsWhitespace(s[j])
    ensures s[..j + 1] <= TrimEnd(s)
  {
    var t := TrimEnd(s);
    assert j < |t|;
    assert t[..j + 1] == s[..j + 1];
  }

  /** A comment cannot start on either slash of a quoted `//`. */
  lemma CutAfterQuotedSlashes(line: string, i: nat, k: nat)
    requires i + 1 < |line| && line[i] == '/' && line[i + 1] == '/'
    requires StateAt(line, i).inString || StateAt(line, i).inChar
    requires CutsAt(line, k) && NoCutBefore(line, i)
    ensures k > i + 1
  {
    assert !CutsAt(line, i);
    assert StateAt(line, i + 1) == Step(StateAt(line, i), line[i]);
    assert !CutsAt(line, i + 1);
  }

  /** A `//` inside a string or character literal is kept: if no comment
      starts before it, it survives in the stripped line. */
  lemma QuotedSlashesKept(line: string, i: nat)
    requires i + 1 < |line| && line[i] == '/' && line[i + 1] == '/'
    requires StateAt(line, i).inString || StateAt(line, i).inChar
    requires NoCutBefore(line, i)
    ensures line[..i + 2] <= StripLine(line)
  {
    match FindCut(line, 0, Fresh)
    case None =>
    case Some(k) =>
      CutAfterQuotedSlashes(line, i, k);
      TrimEndKeeps(line[..k], i + 1);
      assert line[..k][..i + 2] == line[..i + 2];
  }

  /** A line whose string literal holds `//` and which ends in a real comment. */
  const SampleLine := "x = \"http://a\";  // comment"

  /** The scanner's flags over the URL literal: the `//` at positions 10 and
      11 is read inside a string. */
  lemma SampleStatesInLiteral()
    ensures StateAt(SampleLine, 0) == ScanState(false, false, false)
    ensures StateAt(SampleLine, 1) == ScanState(false, false, false)
    ensures StateAt(SampleLine, 2) == ScanState(false, false, false)
    ensures StateAt(SampleLine, 3) == ScanState(false, false, false)
    ensures StateAt(SampleLine, 4) == ScanState(false, false, false)
    ensures StateAt(SampleLine, 5) == ScanState(true, false, false)
    ensures StateAt(SampleLine, 6) == ScanState(true, false, false)
    ensures StateAt(SampleLine, 7) == ScanState(true, false, false)
    ensures StateAt(SampleLine, 8) == ScanState(true, false, false)
    ensures StateAt(SampleLine, 9) == ScanState(true, false, false)
  {
    assert StateAt(SampleLine, 1) == ScanState(false, false, false);
    assert StateAt(SampleLine, 2) == ScanState(false, false, false);
    assert StateAt(SampleLine, 3) == ScanState(false, false, false);
    assert StateAt(SampleLine, 4) == ScanState(false, false, false);
    assert StateAt(SampleLine, 5) == ScanState(true, false, false);
    assert StateAt(SampleLine, 6) == ScanState(true, false, false);
    assert StateAt(SampleLine, 7) == ScanState(true, false, false);
    assert StateAt(SampleLine, 8) == ScanState(true, false, false);
  }

  /** The literal closes at position 13; from there on no flag is set. */
  lemma SampleStatesAfterLiteral()
    ensures StateAt(SampleLine, 9) == ScanState(true, false, false)
    ensures StateAt(SampleLine, 10) == ScanState(true, false, false)
    ensures StateAt(SampleLine, 11) == ScanState(true, false, false)
    ensures StateAt(SampleLine, 12) == ScanState(true, false, false)
    ensures StateAt(SampleLine, 13) == ScanState(true, false, false)
    ensures StateAt(SampleLine, 14) == ScanState(false, false, false)
    ensures StateAt(SampleLine, 15) == ScanState(false, false, false)
    ensures StateAt(SampleLine, 16) == ScanState(false, false, false)
    ensures StateAt(SampleLine, 17) == ScanState(false, false, false)
  {
    SampleStatesInLiteral();
    assert StateAt(SampleLine, 10) == ScanState(true, false, false);
    assert StateAt(SampleLine, 11) == ScanState(true, false, false);
    assert StateAt(SampleLine, 12) == ScanState(true, false, false);
    assert StateAt(SampleLine, 13) == ScanState(true, false, false);
    assert StateAt(SampleLine, 14) == ScanState(false, false, false);
    assert StateAt(SampleLine, 15) == ScanState(false, false, false);
    assert StateAt(SampleLine, 16) == ScanState(false, false, false);
  }

  /** From the closing quote on, the scan finds the comment at position 17. */
  lemma SampleCutAfterLiteral()
    ensures StateAt(SampleLine, 13) == ScanState(true, false, false)
    ensures FindCut(SampleLine, 13, ScanState(true, false, false)) == Some(17)
  {
    SampleStatesAfterLiteral();
    assert FindCut(SampleLine, 17, ScanState(false, false, false)) == Some(17);
    assert FindCut(SampleLine, 16, ScanState(false, false, false)) == FindCut(SampleLine, 17, ScanState(false, false, false));
    assert FindCut(SampleLine, 15, ScanState(false, false, false)) == FindCut(SampleLine, 16, ScanState(false, false, false));
    assert FindCut(SampleLine, 14, ScanState(false, false, false)) == FindCut(SampleLine, 15, ScanState(false, false, false));
    assert FindCut(SampleLine, 13, ScanState(true, false, false)) == FindCut(SampleLine, 14, ScanState(false, false, false));
  }

  /** Inside the URL literal the `//` is passed over. */
  lemma SampleCutInLiteral()
    ensures StateAt(SampleLine, 5) == ScanState(true, false, false)
    ensures FindCut(SampleLine, 5, ScanState(true, false, false)) == Some(17)
  {
    SampleStatesInLiteral();
    SampleStatesAfterLiteral();
    SampleCutAfterLiteral();
    assert FindCut(SampleLine, 12, ScanState(true, false, false)) == FindCut(SampleLine, 13, ScanState(true, false, false));
    assert FindCut(SampleLine, 11, ScanState(true, false, false)) == FindCut(SampleLine, 12, ScanState(true, false, false));
    assert FindCut(SampleLine, 10, ScanState(true, false, false)) == FindCut(SampleLine, 11, ScanState(true, false, false));
    assert FindCut(SampleLine, 9, ScanState(true, false, false)) == FindCut(SampleLine, 10, ScanState(true, false, false));
    assert FindCut(SampleLine, 8, ScanState(true, false, false)) == FindCut(SampleLine, 9, ScanState(true, false, false));
    assert FindCut(SampleLine, 7, ScanState(true, false, false)) == FindCut(SampleLine, 8, ScanState(true, false, false));
    assert FindCut(SampleLine, 6, ScanState(true, false, false)) == FindCut(SampleLine, 7, ScanState(true, false, false));
    assert FindCut(SampleLine, 5, ScanState(true, false, false)) == FindCut(SampleLine, 6, ScanState(true, false, false));
  }

  /** Scanning the sample finds the comment at position 17 and nowhere before. */
  lemma SampleCut()
    ensures FindCut(SampleLine, 0, Fresh) == Some(17)
  {
    SampleStatesInLiteral();
    SampleCutInLiteral();
    assert FindCut(SampleLine, 4, ScanState(false, false, false)) == FindCut(SampleLine, 5, ScanState(true, false, false));
    assert FindCut(SampleLine, 3, ScanState(false, false, false)) == FindCut(SampleLine, 4, ScanState(false, false, false));
    assert FindCut(SampleLine, 2, ScanState(false, false, false)) == FindCut(SampleLine, 3, ScanState(false, false, false));
    assert FindCut(SampleLine, 1, ScanState(false, false, false)) == FindCut(SampleLine, 2, ScanState(false, false, false));
    assert FindCut(SampleLine, 0, ScanState(false, false, false)) == FindCut(SampleLine, 1, ScanState(false, false, false));
  }

  /** The `//` inside the URL literal stays; the trailing comment and the
      spaces before it go. */
  lemma StripsSampleLine()
    ensures StripLine(SampleLine) == "x = \"http://a\";"
  {
    SampleCut();
    var kept := "x = \"http://a\";";
    assert SampleLine[..17] == kept + "  ";
    TrimEndUnique(SampleLine[..17], kept);
  }
}

=== FILE: countdown.dfy ===
/**
 * The countdown: `formatCountdown` (whole seconds shown as `mm:ss`) and the
 * rule of `getSelectedCountdownSeconds` that picks the countdown length from
 * the timer selector.
 */
module Countdown {
  import opened Wrappers

  predicate IsDigit(c: char) { '0' <= c <= '9' }

  predicate IsDigits(s: string) {
    forall i :: 0 <= i < |s| ==> IsDigit(s[i])
  }

  function DigitChar(d: nat): (c: char)
    requires d < 10
    ensures IsDigit(c) && DigitValue(c) == d
  {
    ('0' as int + d) as char
  }

  function DigitValue(c: char): nat
    requires IsDigit(c)
  {
    c as int - '0' as int
  }

  /** `String(n)` for a natural number: decimal digits without leading zeros. */
  function NatToString(n: nat): (s: string)
    ensures |s| >= 1 && IsDigits(s)
    ensures n >= 1 ==> s[0] != '0'
    ensures |s| == 1 || s[0] != '0'
    ensures n < 100 ==> |s| <= 2
  {
    if n < 10 then [DigitChar(n)] else NatToString(n / 10) + [DigitChar(n % 10)]
  }

  /** The number a string of decimal digits denotes. */
  function DigitsValue(s: string): nat
    requires IsDigits(s)
  {
    if |s| == 0 then 0 else DigitsValue(s[..|s| - 1]) * 10 + DigitValue(s[|s| - 1])
  }

  /** Reading the digits back gives the number that was written. */
  lemma {:induction false} NatToStringRoundTrip(n: nat)
    ensures DigitsValue(NatToString(n)) == n
  {
    if n >= 10 {
      NatToStringRoundTrip(n / 10);
      var s := NatToString(n);
      assert s[..|s| - 1] == NatToString(n / 10);
    }
  }

  /** `k` copies of `c`. */
  function Repeat(c: char, k: nat): (r: string)
    ensures |r| == k
  {
    if k == 0 then [] else [c] + Repeat(c, k - 1)
  }

  /** `s.padStart(width, fill)` with a one-character filler: fill characters
      in front of `s` up to `width`. */
  function PadStart(s: string, width: nat, fill: char): (r: string)
    ensures r == Repeat(fill, if |s| >= width then 0 else width - |s|) + s
    decreases width - |s|
  {
    if |s| >= width then s
    else
      RepeatSnoc(fill, width - |s| - 1);
      PadStart([fill] + s, width, fill)
  }

  /** Leading zeros do not change the value. */
  lemma {:induction false} LeadingZeros(k: nat, s: string)
    requires IsDigits(s)
    ensures IsDigits(Repeat('0', k) + s) && DigitsValue(Repeat('0', k) + s) == DigitsValue(s)
    decreases |s|
  {
    var z := Repeat('0', k);
    assert IsDigits(z) by {
      RepeatIsConstant('0', k);
    }
    if |s| == 0 {
      assert z + s == z;
      ZerosValue(k);
    } else {
      LeadingZeros(k, s[..|s| - 1]);
      assert (z + s)[..|z + s| - 1] == z + s[..|s| - 1];
    }
  }

  lemma {:induction false} RepeatIsConstant(c: char, k: nat)
    ensures forall i :: 0 <= i < k ==> Repeat(c, k)[i] == c
  {
    if k > 0 {
      RepeatIsConstant(c, k - 1);
    }
  }

  lemma {:induction false} ZerosValue(k: nat)
    ensures IsDigits(Repeat('0', k)) && DigitsValue(Repeat('0', k)) == 0
  {
    RepeatIsConstant('0', k);
    if k > 0 {
      ZerosValue(k - 1);
      var z := Repeat('0', k);
      assert z[..k - 1] == Repeat('0', k - 1) by {
        assert z == Repeat('0', k - 1) + ['0'] by {
          RepeatSnoc('0', k - 1);
        }
      }
    }
  }

  lemma {:induction false} RepeatSnoc(c: char, k: nat)
    ensures Repeat(c, k + 1) == Repeat(c, k) + [c]
  {
    if k > 0 {
      RepeatSnoc(c, k - 1);
    }
  }

  /** `String(n).padStart(2, "0")`. */
  function AtLeastTwoDigits(n: nat): (r: string)
    ensures |r| >= 2 && IsDigits(r) && DigitsValue(r) == n
    ensures n < 100 ==> |r| == 2
    ensures |r| == 2 || r[0] != '0'
  {
    var s := NatToString(n);
    NatToStringRoundTrip(n);
    LeadingZeros(if |s| >= 2 then 0 else 2 - |s|, s);
    assert |s| >= 2 ==> Repeat('0', 0) + s == s;
    PadStart(s, 2, '0')
  }

  /** `mm + ":" + ss` with a two-character seconds field. */
  function Clock(mm: string, ss: string): (r: string)
    requires |mm| >= 2 && |ss| == 2
    ensures |r| >= 5 && r[|r| - 3] == ':'
    ensures r[..|r| - 3] == mm && r[|r| - 2..] == ss
  {
    mm + ":" + ss
  }

  lemma ClockReadsBack(mm: string, ss: string)
    requires |mm| >= 2 && |ss| == 2 && IsDigits(mm) && IsDigits(ss)
    ensures var r := Clock(mm, ss);
      && IsDigits(r[..|r| - 3]) && IsDigits(r[|r| - 2..])
      && DigitsValue(r[..|r| - 3]) == DigitsValue(mm)
      && DigitsValue(r[|r| - 2..]) == DigitsValue(ss)
  {
  }

  /** `Math.max(0, Math.floor(seconds))`. */
  function WholeSeconds(seconds: real): (s: nat)
    ensures s as real <= (if seconds < 0.0 then 0.0 else seconds) < s as real + 1.0
  {
    if seconds.Floor < 0 then 0 else seconds.Floor
  }

  /** `r` is `mm:ss` where the digits before the colon read as `minutes` and
      the two digits after it read as `secs`. */
  predicate ReadsAs(r: string, minutes: nat, secs: nat) {
    && |r| >= 5 && r[|r| - 3] == ':'
    && IsDigits(r[..|r| - 3]) && IsDigits(r[|r| - 2..])
    && DigitsValue(r[..|r| - 3]) == minutes
    && DigitsValue(r[|r| - 2..]) == secs
  }

  lemma FieldsReadBack(a: nat, b: nat)
    requires b < 60
    ensures ReadsAs(Clock(AtLeastTwoDigits(a), AtLeastTwoDigits(b)), a, b)
  {
    var mm := AtLeastTwoDigits(a);
    var ss := AtLeastTwoDigits(b);
    assert |ss| == 2;
    ClockReadsBack(mm, ss);
  }

  /** `formatCountdown(seconds)`: the whole, non-negative seconds shown as
      the minutes, a colon, and a two-digit seconds field below 60, so that
      the text reads back as the number of seconds it shows. The minutes
      field has exactly two digits below 100 minutes and no leading zero
      above. */
  function FormatCountdown(seconds: real): (r: string)
    ensures ReadsAs(r, WholeSeconds(seconds) / 60, WholeSeconds(seconds) % 60)
    ensures WholeSeconds(seconds) / 60 < 100 ==> |r| == 5
    ensures |r| == 5 || r[0] != '0'
  {
    var s := WholeSeconds(seconds);
    FieldsReadBack(s / 60, s % 60);
    Clock(AtLeastTwoDigits(s / 60), AtLeastTwoDigits(s % 60))
  }

  /** The timer selector: one of the preset durations or "custom". */
  datatype TimerChoice = Preset(seconds: int) | Custom

  const MinCustomSeconds := 10
  const FallbackSeconds := 60

  /** `getSelectedCountdownSeconds`, with the custom field already passed
      through `parseInt` (None when that gives NaN). A custom value below the
      floor, or not a number, falls back to 60 seconds. */
  function SelectedSeconds(choice: TimerChoice, custom: Option<int>): (t: int)
    ensures choice.Preset? ==> t == choice.seconds
    ensures choice.Custom? ==> t >= MinCustomSeconds
    ensures choice.Custom? ==> (t == FallbackSeconds <==> custom.None? || custom.value < MinCustomSeconds || custom.value == FallbackSeconds)
    ensures choice.Custom? && custom.Some? && custom.value >= MinCustomSeconds ==> t == custom.value
  {
    match choice
    case Custom =>
      if custom.Some? && custom.value >= MinCustomSeconds then custom.value else FallbackSeconds
    case Preset(n) => n
  }
}

=== FILE: html.dfy ===
/**
 * `escapeHtml`: the chain of five `replaceAll` calls that makes file content
 * safe to embed in the overlay's markup.
 */
module Html {
  import opened Text

  /** The entity each of the five special characters becomes. */
  function EscapeChar(c: char): string {
    match c
    case '&' => "&amp;"
    case '<' => "&lt;"
    case '>' => "&gt;"
    case '"' => "&quot;"
    case '\'' => "&#039;"
    case _ => [c]
  }

  /** Reference definition: every character escaped on its own. */
  function EscapeEach(s: string): string {
    if |s| == 0 then [] else EscapeChar(s[0]) + EscapeEach(s[1..])
  }

  /** The five replacements in the order the source applies them; each
      stage names the replacements still to come. */
  function ReplaceChain(s: string): string {
    AfterAmp(ReplaceChar(s, '&', "&amp;"))
  }

  function AfterAmp(s: string): string {
    AfterLt(ReplaceChar(s, '<', "&lt;"))
  }

  function AfterLt(s: string): string {
    AfterGt(ReplaceChar(s, '>', "&gt;"))
  }

  function AfterGt(s: string): string {
    ReplaceChar(ReplaceChar(s, '"', "&quot;"), '\'', "&#039;")
  }

  /** Text free of the special characters passes the later stages unchanged. */
  lemma AfterAmpKeeps(t: string)
    requires '<' !in t && '>' !in t && '"' !in t && '\'' !in t
    ensures AfterAmp(t) == t
  {
    ReplaceCharAbsent(t, '<', "&lt;");
    ReplaceCharAbsent(t, '>', "&gt;");
    ReplaceCharAbsent(t, '"', "&quot;");
    ReplaceCharAbsent(t, '\'', "&#039;");
  }

  lemma AfterLtKeeps(t: string)
    requires '>' !in t && '"' !in t && '\'' !in t
    ensures AfterLt(t) == t
  {
    ReplaceCharAbsent(t, '>', "&gt;");
    ReplaceCharAbsent(t, '"', "&quot;");
    ReplaceCharAbsent(t, '\'', "&#039;");
  }

  lemma AfterGtKeeps(t: string)
    requires '"' !in t && '\'' !in t
    ensures AfterGt(t) == t
  {
    ReplaceCharAbsent(t, '"', "&quot;");
    ReplaceCharAbsent(t, '\'', "&#039;");
  }

  /** `escapeHtml`. The result holds none of the four markup-significant
      characters `<`, `>`, `"` and `'`. */
  function EscapeHtml(s: string): (r: string)
    ensures '<' !in r && '>' !in r && '"' !in r && '\'' !in r
    ensures r == EscapeEach(s)
  {
    var r1 := ReplaceAll(s, "&", "&amp;");
    var r2 := ReplaceAll(r1, "<", "&lt;");
    var r3 := ReplaceAll(r2, ">", "&gt;");
    var r4 := ReplaceAll(r3, "\"", "&quot;");
    var r5 := ReplaceAll(r4, "'", "&#039;");
    ChainIsPerCharacter(s);
    EscapeEachClean(s);
    r5
  }

  lemma EscapeCharClean(c: char)
    ensures '<' !in EscapeChar(c) && '>' !in EscapeChar(c)
    ensures '"' !in EscapeChar(c) && '\'' !in EscapeChar(c)
  {
  }

  lemma {:induction false} EscapeEachClean(s: string)
    ensures '<' !in EscapeEach(s) && '>' !in EscapeEach(s)
    ensures '"' !in EscapeEach(s) && '\'' !in EscapeEach(s)
  {
    if |s| > 0 {
      EscapeCharClean(s[0]);
      EscapeEachClean(s[1..]);
    }
  }

  lemma ReplaceOneChar(x: char, c: char, rep: string)
    ensures ReplaceChar([x], c, rep) == if x == c then rep else [x]
  {
    assert [x][1..] == [];
  }

  lemma ChainOnOneChar(c: char)
    ensures ReplaceChain([c]) == EscapeChar(c)
  {
    var e := EscapeChar(c);
    var s1 := ReplaceChar([c], '&', "&amp;");
    ReplaceOneChar(c, '&', "&amp;");
    if c == '&' {
      assert s1 == e;
      AfterAmpKeeps(e);
      return;
    }
    assert s1 == [c];
    var s2 := ReplaceChar(s1, '<', "&lt;");
    ReplaceOneChar(c, '<', "&lt;");
    if c == '<' {
      assert s2 == e;
      AfterLtKeeps(e);
      return;
    }
    assert s2 == [c];
    var s3 := ReplaceChar(s2, '>', "&gt;");
    ReplaceOneChar(c, '>', "&gt;");
    if c == '>' {
      assert s3 == e;
      AfterGtKeeps(e);
      return;
    }
    assert s3 == [c];
    var s4 := ReplaceChar(s3, '"', "&quot;");
    ReplaceOneChar(c, '"', "&quot;");
    ReplaceOneChar(c, '\'', "&#039;");
    if c == '"' {
      assert s4 == e;
      ReplaceCharAbsent(e, '\'', "&#039;");
      return;
    }
    assert s4 == [c];
  }

  lemma ChainConcat(a: string, b: string)
    ensures ReplaceChain(a + b) == ReplaceChain(a) + ReplaceChain(b)
  {
    var a1, b1 := ReplaceChar(a, '&', "&amp;"), ReplaceChar(b, '&', "&amp;");
    ReplaceCharConcat(a, b, '&', "&amp;");
    var a2, b2 := ReplaceChar(a1, '<', "&lt;"), ReplaceChar(b1, '<', "&lt;");
    ReplaceCharConcat(a1, b1, '<', "&lt;");
    var a3, b3 := ReplaceChar(a2, '>', "&gt;"), ReplaceChar(b2, '>', "&gt;");
    ReplaceCharConcat(a2, b2, '>', "&gt;");
    var a4, b4 := ReplaceChar(a3, '"', "&quot;"), ReplaceChar(b3, '"', "&quot;");
    ReplaceCharConcat(a3, b3, '"', "&quot;");
    ReplaceCharConcat(a4, b4, '\'', "&#039;");
  }

  /** Applying the replacements one after another is the same as escaping
      each character independently: no replacement rewrites the entities an
      earlier one produced. */
  lemma {:induction false} ChainIsPerCharacter(s: string)
    ensures ReplaceChain(s) == EscapeEach(s)
  {
    if |s| > 0 {
      assert s == [s[0]] + s[1..];
      ChainConcat([s[0]], s[1..]);
      ChainOnOneChar(s[0]);
      ChainIsPerCharacter(s[1..]);
    }
  }

  /** Decoding the five entities back to their characters. */
  function Unescape(s: string): string
    decreases |s|
  {
    if |s| == 0 then []
    else if s[0] != '&' then [s[0]] + Unescape(s[1..])
    else if |s| >= 5 && s[..5] == "&amp;" then ['&'] + Unescape(s[5..])
    else if |s| >= 4 && s[..4] == "&lt;" then ['<'] + Unescape(s[4..])
    else if |s| >= 4 && s[..4] == "&gt;" then ['>'] + Unescape(s[4..])
    else if |s| >= 6 && s[..6] == "&quot;" then ['"'] + Unescape(s[6..])
    else if |s| >= 6 && s[..6] == "&#039;" then ['\''] + Unescape(s[6..])
    else [s[0]] + Unescape(s[1..])
  }

  lemma UnescapeEntity(c: char, t: string)
    requires c in "&<>\"'"
    ensures Unescape(EscapeChar(c) + t) == [c] + Unescape(t)
  {
    var ent := EscapeChar(c);
    var e := ent + t;
    assert e[..|ent|] == ent && e[|ent|..] == t;
    assert e[0] == '&' && e[1] == ent[1];
  }

  lemma UnescapePlain(c: char, t: string)
    requires c !in "&<>\"'"
    ensures Unescape(EscapeChar(c) + t) == [c] + Unescape(t)
  {
    var e := [c] + t;
    assert e[0] == c && e[1..] == t;
  }

  lemma UnescapeStep(c: char, t: string)
    ensures Unescape(EscapeChar(c) + t) == [c] + Unescape(t)
  {
    if c in "&<>\"'" {
      UnescapeEntity(c, t);
    } else {
      UnescapePlain(c, t);
    }
  }

  /** Escaping loses no information: the entities decode back to the text. */
  lemma {:induction false} UnescapeEscape(s: string)
    ensures Unescape(EscapeHtml(s)) == s
  {
    if |s| > 0 {
      UnescapeEscape(s[1..]);
      UnescapeStep(s[0], EscapeHtml(s[1..]));
      assert s == [s[0]] + s[1..];
    }
  }
}

=== FILE: overlay.dfy ===
/**
 * `renderOverlay`: the coloured copy of the target drawn under the text area.
 * Each target character is pending, ok or bad; the character at the typing
 * position carries the cursor while the run is not finished; typed text past
 * the end of the target is shown as one bad run. `ToHtml` is the markup the
 * source builds from that classification.
 */
module Overlay {
  import opened Wrappers
  import opened Text
  import opened Html
  import opened Stats

  datatype Mark = Pending | Ok | Bad

  datatype Cell = Cell(ch: char, mark: Mark, cursor: bool)

  /** The overlay's content: the placeholder shown when no file is loaded, or
      one cell per target character plus the optional overflow run. */
  datatype View = Placeholder | Spans(cells: seq<Cell>, overflow: Option<string>)

  const PlaceholderText := "(Select a file to begin)"

  /** The cell for target position `i`: it shows the target character, is
      pending until something is typed there, then ok or bad by comparison,
      and carries the cursor at the typing position of an unfinished run. */
  function CellAt(typed: string, target: string, finished: bool, i: nat): (c: Cell)
    requires i < |target|
    ensures c.ch == target[i]
    ensures c.mark == Pending <==> |typed| <= i
    ensures c.mark == Ok <==> i < |typed| && typed[i] == target[i]
    ensures c.mark == Bad <==> i < |typed| && typed[i] != target[i]
    ensures c.cursor <==> i == |typed| && !finished
  {
    var mark := if i < |typed| then (if typed[i] == target[i] then Ok else Bad) else Pending;
    Cell(target[i], mark, i == |typed| && !finished)
  }

  /** `renderOverlay(typed, target)` with the session's `finished` flag. */
  function RenderOverlay(typed: string, target: string, finished: bool): (v: View)
    ensures v.Placeholder? <==> |target| == 0
    ensures v.Spans? ==> |v.cells| == |target|
    ensures v.Spans? ==> (v.overflow.Some? <==> |typed| > |target|)
    ensures v.Spans? && v.overflow.Some? ==> typed[..|target|] + v.overflow.value == typed
  {
    if |target| == 0 then Placeholder
    else
      Spans(
        seq(|target|, i requires 0 <= i < |target| => CellAt(typed, target, finished, i)),
        if |typed| > |target| then Some(typed[|target|..]) else None)
  }

  /** Every target character gets its own cell, in order: ok where the typed
      character matches, bad where it differs, pending where nothing has been
      typed yet. */
  lemma CellsClassify(typed: string, target: string, finished: bool, i: nat)
    requires i < |target|
    ensures var c := RenderOverlay(typed, target, finished).cells[i];
      && c.ch == target[i]
      && (i < |typed| ==> (c.mark == Ok <==> typed[i] == target[i]) && c.mark != Pending)
      && (i >= |typed| <==> c.mark == Pending)
  {
  }

  /** The positions that carry the cursor: only the typing position, only
      while the run is not finished, and none once the target is fully typed. */
  lemma CursorPositions(typed: string, target: string, finished: bool)
    requires |target| > 0
    ensures var cells := RenderOverlay(typed, target, finished).cells;
      (set i | 0 <= i < |cells| && cells[i].cursor) ==
      (if !finished && |typed| < |target| then {|typed|} else {})
  {
    var cells := RenderOverlay(typed, target, finished).cells;
    if !finished && |typed| < |target| {
      assert cells[|typed|].cursor;
    }
  }

  /** Number of cells with a given mark. */
  function CountMark(cells: seq<Cell>, m: Mark): nat {
    if |cells| == 0 then 0
    else CountMark(cells[..|cells| - 1], m) + (if cells[|cells| - 1].mark == m then 1 else 0)
  }

  lemma {:induction false} CountMarksPrefix(typed: string, target: string, finished: bool, n: nat)
    requires 0 < |target| && n <= |target|
    ensures var cells := RenderOverlay(typed, target, finished).cells;
      && CountMark(cells[..n], Ok) == MatchCount(typed, target, Min(n, |typed|))
      && CountMark(cells[..n], Bad) == Min(n, |typed|) - MatchCount(typed, target, Min(n, |typed|))
  {
    var cells := RenderOverlay(typed, target, finished).cells;
    if n > 0 {
      CountMarksPrefix(typed, target, finished, n - 1);
      assert cells[..n][..n - 1] == cells[..n - 1];
    }
  }

  /** The overlay and the statistics agree: the ok cells are the correct
      characters, and the bad cells plus the overflow run are the incorrect ones. */
  lemma OverlayAgreesWithStats(typed: string, target: string, finished: bool, seconds: real)
    requires |target| > 0
    ensures var v := RenderOverlay(typed, target, finished);
      var s := CalcStats(typed, target, seconds);
      && CountMark(v.cells, Ok) == s.correct
      && CountMark(v.cells, Bad) + |v.overflow.GetOr([])| == s.incorrect
  {
    var v := RenderOverlay(typed, target, finished);
    CountMarksPrefix(typed, target, finished, |target|);
    assert v.cells[..|target|] == v.cells;
  }

  /** The `class` attribute of a cell's span. */
  function ClassName(c: Cell): string {
    (match c.mark
     case Pending => "pending"
     case Ok => "ok"
     case Bad => "bad")
    + (if c.cursor then " cursor" else "")
  }

  /** One `<span class="reference ...">...</span>` element around already escaped text. */
  function Span(cls: string, safe: string): string {
    SpanOpen + cls + SpanOpenEnd + safe + SpanClose
  }

  const SpanOpen := "<span class=\"reference "
  const SpanOpenEnd := "\">"
  const SpanClose := "</span>"

  function CellsHtml(cells: seq<Cell>): string {
    if |cells| == 0 then []
    else Span(ClassName(cells[0]), EscapeHtml([cells[0].ch])) + CellsHtml(cells[1..])
  }

  /** Number of span elements in the markup. */
  function SpanCount(v: View): nat {
    match v
    case Placeholder => 0
    case Spans(cells, overflow) => |cells| + (if overflow.Some? then 1 else 0)
  }

  lemma ClassNameClean(c: Cell)
    ensures CountChar(ClassName(c), '<') == 0 && CountChar(ClassName(c), '>') == 0
  {
    var name := ClassName(c);
    assert '<' !in name && '>' !in name;
    CountCharAbsent(name, '<');
    CountCharAbsent(name, '>');
  }

  lemma CountOnlyFirst(s: string, c: char)
    requires |s| > 0 && s[0] == c && c !in s[1..]
    ensures CountChar(s, c) == 1
  {
    CountCharAbsent(s[1..], c);
  }

  lemma CountOnlyLast(s: string, c: char)
    requires |s| > 0 && s[|s| - 1] == c && c !in s[..|s| - 1]
    ensures CountChar(s, c) == 1
  {
    CountCharAbsent(s[..|s| - 1], c);
    CountCharConcat(s[..|s| - 1], [c], c);
    assert s == s[..|s| - 1] + [c];
  }

  /** Each fixed piece of a span holds its share of the two angle brackets. */
  lemma SpanOpenCounts()
    ensures CountChar(SpanOpen, '<') == 1
  {
    CountOnlyFirst(SpanOpen, '<');
  }

  lemma SpanOpenHasNoCloser()
    ensures CountChar(SpanOpen, '>') == 0
  {
    assert '>' !in SpanOpen;
    CountCharAbsent(SpanOpen, '>');
  }

  lemma SpanOpenEndCounts()
    ensures CountChar(SpanOpenEnd, '<') == 0 && CountChar(SpanOpenEnd, '>') == 1
  {
    assert '<' !in SpanOpenEnd;
    CountCharAbsent(SpanOpenEnd, '<');
    CountOnlyLast(SpanOpenEnd, '>');
  }

  lemma SpanCloseCounts()
    ensures CountChar(SpanClose, '<') == 1 && CountChar(SpanClose, '>') == 1
  {
    CountOnlyFirst(SpanClose, '<');
    CountOnlyLast(SpanClose, '>');
  }

  lemma CountFive(a: string, b: string, c: string, d: string, e: string, ch: char)
    ensures CountChar(a + b + c + d + e, ch)
      == CountChar(a, ch) + CountChar(b, ch) + CountChar(c, ch) + CountChar(d, ch) + CountChar(e, ch)
  {
    CountCharConcat(a + b + c + d, e, ch);
    CountCharConcat(a + b + c, d, ch);
    CountCharConcat(a + b, c, ch);
    CountCharConcat(a, b, ch);
  }

  lemma SpanTags(cls: string, safe: string)
    requires CountChar(cls, '<') == 0 && CountChar(cls, '>') == 0
    requires '<' !in safe && '>' !in safe
    ensures CountChar(Span(cls, safe), '<') == 2 && CountChar(Span(cls, safe), '>') == 2
  {
    SpanOpenCounts();
    SpanOpenHasNoCloser();
    SpanOpenEndCounts();
    SpanCloseCounts();
    CountCharAbsent(safe, '<');
    CountCharAbsent(safe, '>');
    CountFive(SpanOpen, cls, SpanOpenEnd, safe, SpanClose, '<');
    CountFive(SpanOpen, cls, SpanOpenEnd, safe, SpanClose, '>');
  }

  lemma {:induction false} CellsHtmlTags(cells: seq<Cell>)
    ensures CountChar(CellsHtml(cells), '<') == 2 * |cells|
    ensures CountChar(CellsHtml(cells), '>') == 2 * |cells|
  {
    if |cells| > 0 {
      var head := Span(ClassName(cells[0]), EscapeHtml([cells[0].ch]));
      ClassNameClean(cells[0]);
      SpanTags(ClassName(cells[0]), EscapeHtml([cells[0].ch]));
      CellsHtmlTags(cells[1..]);
      CountCharConcat(head, CellsHtml(cells[1..]), '<');
      CountCharConcat(head, CellsHtml(cells[1..]), '>');
    }
  }

  /** The trailing bad span for typed text past the end of the target, if any. */
  function OverflowHtml(overflow: Option<string>): (r: string)
    ensures CountChar(r, '<') == (if overflow.Some? then 2 else 0)
    ensures CountChar(r, '>') == (if overflow.Some? then 2 else 0)
  {
    match overflow
    case None => []
    case Some(extra) =>
      SpanTags("bad", EscapeHtml(extra));
      Span("bad", EscapeHtml(extra))
  }

  /** The markup of a non-empty view: the cell spans, then the overflow span. */
  function SpansHtml(cells: seq<Cell>, overflow: Option<string>): (r: string)
    ensures CountChar(r, '<') == 2 * |cells| + (if overflow.Some? then 2 else 0)
    ensures CountChar(r, '>') == 2 * |cells| + (if overflow.Some? then 2 else 0)
  {
    CellsHtmlTags(cells);
    CountCharConcat(CellsHtml(cells), OverflowHtml(overflow), '<');
    CountCharConcat(CellsHtml(cells), OverflowHtml(overflow), '>');
    CellsHtml(cells) + OverflowHtml(overflow)
  }

  lemma PlaceholderHasNoTags()
    ensures CountChar(PlaceholderText, '<') == 0 && CountChar(PlaceholderText, '>') == 0
  {
    assert '<' !in PlaceholderText && '>' !in PlaceholderText;
    CountCharAbsent(PlaceholderText, '<');
    CountCharAbsent(PlaceholderText, '>');
  }

  /** The string `renderOverlay` returns. File content cannot inject markup:
      every `<` and `>` in it belongs to the opening or closing tag of one of
      its spans. */
  function ToHtml(v: View): (r: string)
    ensures CountChar(r, '<') == 2 * SpanCount(v)
    ensures CountChar(r, '>') == 2 * SpanCount(v)
  {
    match v
    case Placeholder =>
      PlaceholderHasNoTags();
      PlaceholderText
    case Spans(cells, overflow) =>
      SpansHtml(cells, overflow)
  }
}

=== FILE: rank.dfy ===
/**
 * `getRank`: the badge awarded at the end of a run, looked up in an ordered
 * threshold table where the first matching row wins. The badge's emoji and
 * colour are presentation and are not modelled; a tier names the row.
 */
module Rank {
  import opened Wrappers

  datatype Tier = Turtle | Junior | Dev | Fast | Beast | Godlike

  /** Position of a tier from the bottom (Turtle) to the top (Godlike). */
  function Level(t: Tier): nat {
    match t
    case Turtle => 0
    case Junior => 1
    case Dev => 2
    case Fast => 3
    case Beast => 4
    case Godlike => 5
  }

  /** One row: a net-speed floor, an optional accuracy floor, the tier awarded. */
  datatype Threshold = Threshold(minNet: int, minAcc: Option<real>, tier: Tier)

  predicate Matches(row: Threshold, net: int, acc: real) {
    net >= row.minNet && (row.minAcc.Some? ==> acc >= row.minAcc.value)
  }

  /** Row `i` matches and no earlier row does. */
  predicate IsFirstMatch(rows: seq<Threshold>, i: int, net: int, acc: real) {
    && 0 <= i < |rows|
    && Matches(rows[i], net, acc)
    && forall j :: 0 <= j < i ==> !Matches(rows[j], net, acc)
  }

  /** The rows in the order the source tests them, highest first. */
  const Table: seq<Threshold> := [
    Threshold(85, Some(97.0), Godlike),
    Threshold(70, None, Beast),
    Threshold(55, None, Fast),
    Threshold(40, None, Dev),
    Threshold(25, None, Junior)
  ]

  /** The tier of the first matching row of `rows`, or Turtle when none matches. */
  function FirstMatch(rows: seq<Threshold>, net: int, acc: real): (t: Tier)
    ensures t == Turtle || exists i :: 0 <= i < |rows| && rows[i].tier == t
    ensures forall i :: IsFirstMatch(rows, i, net, acc) ==> t == rows[i].tier
    ensures (forall i :: 0 <= i < |rows| ==> !Matches(rows[i], net, acc)) ==> t == Turtle
  {
    if |rows| == 0 then Turtle
    else if Matches(rows[0], net, acc) then rows[0].tier
    else FirstMatch(rows[1..], net, acc)
  }

  /** The rank in closed form, the chain of tests the source writes out: the
      top tier needs both net >= 85 and accuracy >= 97; below it only the net
      speed decides. */
  function ClosedForm(net: int, acc: real): Tier {
    if net >= 85 && acc >= 97.0 then Godlike
    else if net >= 70 then Beast
    else if net >= 55 then Fast
    else if net >= 40 then Dev
    else if net >= 25 then Junior
    else Turtle
  }

  /** `getRank(netWpm, accuracy)`: the table lookup agrees with the chain of
      tests, so the first matching row is the one the chain picks. */
  function GetRank(net: int, acc: real): (t: Tier)
    ensures t == ClosedForm(net, acc)
    ensures forall i :: IsFirstMatch(Table, i, net, acc) ==> t == Table[i].tier
    ensures (forall i :: 0 <= i < |Table| ==> !Matches(Table[i], net, acc)) <==> t == Turtle
  {
    TableIsClosedForm(net, acc);
    FirstMatch(Table, net, acc)
  }

  /** Walking the table row by row gives the closed form. */
  lemma {:induction false} TableIsClosedForm(net: int, acc: real)
    ensures FirstMatch(Table, net, acc) == ClosedForm(net, acc)
  {
    var rows := Table;
    assert FirstMatch(rows, net, acc) ==
      if Matches(rows[0], net, acc) then Godlike else FirstMatch(rows[1..], net, acc);
    rows := rows[1..];
    assert FirstMatch(rows, net, acc) ==
      if net >= 70 then Beast else FirstMatch(rows[1..], net, acc);
    rows := rows[1..];
    assert FirstMatch(rows, net, acc) ==
      if net >= 55 then Fast else FirstMatch(rows[1..], net, acc);
    rows := rows[1..];
    assert FirstMatch(rows, net, acc) ==
      if net >= 40 then Dev else FirstMatch(rows[1..], net, acc);
    rows := rows[1..];
    assert FirstMatch(rows, net, acc) ==
      if net >= 25 then Junior else FirstMatch(rows[1..], net, acc);
    assert rows[1..] == [];
  }

  /** Fast but not accurate enough for the top tier: the next tier down. */
  lemma FastButInaccurate(net: int, acc: real)
    requires net >= 85 && acc < 97.0
    ensures GetRank(net, acc) == Beast
  {
  }

  /** At fixed accuracy a higher net speed never earns a lower tier. */
  lemma RankMonotoneInNet(net1: int, net2: int, acc: real)
    requires net1 <= net2
    ensures Level(GetRank(net1, acc)) <= Level(GetRank(net2, acc))
  {
  }

  /** At fixed net speed a higher accuracy never earns a lower tier. */
  lemma RankMonotoneInAccuracy(net: int, acc1: real, acc2: real)
    requires acc1 <= acc2
    ensures Level(GetRank(net, acc1)) <= Level(GetRank(net, acc2))
  {
  }

  /** Worked examples of the threshold table. */
  lemma RankExamples()
    ensures GetRank(90, 98.0) == Godlike
    ensures GetRank(60, 90.0) == Fast
    ensures GetRank(10, 50.0) == Turtle
  {
  }
}

=== FILE: session.dfy ===
/**
 * The run lifecycle of the typing tool: `startRun`, `finishRun`,
 * `resetRun(keepFile)`, the countdown tick of `updateLoop`, the text area's
 * input handler and `loadFileByPath` once the file text is known. The clock
 * is outside the model: every transition that needs time receives the
 * seconds elapsed since the run started.
 */
module Session {
  import opened Wrappers
  import opened Text
  import opened Stats
  import opened Rank
  import opened Best
  import opened Countdown

  /** The session's state: the loaded file and its text, the typed text, the
      two run flags, the countdown, and whether the text area accepts input. */
  datatype Session = Session(
    fileName: string,
    target: string,
    typed: string,
    started: bool,
    finished: bool,
    countdownTotal: int,
    countdownLeft: real,
    inputEnabled: bool)

  /** Best records by file name (the persisted store, keyed by file). */
  type Store = map<string, Record>

  /** What the result panel shows after a run. */
  datatype Summary = Summary(stats: Stats, current: Record, acc: real, errRate: real, rank: Tier, best: Record)

  /** The state after a transition, the store, and the result panel if the
      transition finished the run. */
  datatype Outcome = Outcome(session: Session, store: Store, summary: Option<Summary>)

  /** `Math.round`: halves round up. */
  function JsRound(x: real): (n: int)
    ensures x - 0.5 < n as real <= x + 0.5
  {
    (x + 0.5).Floor
  }

  function Clamp(x: real, lo: real, hi: real): (r: real)
    requires lo <= hi
    ensures lo <= r <= hi
    ensures lo <= x <= hi ==> r == x
    ensures x < lo ==> r == lo
    ensures x > hi ==> r == hi
  {
    if x < lo then lo else if x > hi then hi else x
  }

  /** `Number(x.toFixed(digits))` on an exact real: the nearest multiple of
      10^-digits, halves rounded away from zero. The result lies within half a
      unit of the last kept decimal and keeps the sign of `x`. */
  function RoundTo(x: real, digits: nat): (r: real)
    ensures var half := 0.5 / Pow10(digits) as real;
      x >= 0.0 ==> x - half < r <= x + half
    ensures var half := 0.5 / Pow10(digits) as real;
      x < 0.0 ==> x - half <= r < x + half
    ensures x >= 0.0 ==> r >= 0.0
    ensures x <= 0.0 ==> r <= 0.0
    ensures WholeUnits(r, Pow10(digits) as real)
  {
    var scale := Pow10(digits) as real;
    RoundScaled(x, scale);
    RoundScaled(-x, scale);
    if x >= 0.0 then
      RoundHalfUpNonNegative(x, scale);
      HalfUpIsWholeUnits(x, scale);
      RoundHalfUp(x, scale)
    else
      RoundHalfUpNonNegative(-x, scale);
      HalfUpIsWholeUnits(-x, scale);
      NegatedWholeUnits(RoundHalfUp(-x, scale), scale);
      -RoundHalfUp(-x, scale)
  }

  /** `r` is a whole number of steps of 1/scale: it has no digits past the
      last kept decimal. */
  predicate WholeUnits(r: real, scale: real) {
    (r * scale).Floor as real == r * scale
  }

  lemma HalfUpIsWholeUnits(x: real, scale: real)
    requires scale > 0.0
    ensures WholeUnits(RoundHalfUp(x, scale), scale)
  {
    var k := (x * scale + 0.5).Floor;
    var r := RoundHalfUp(x, scale);
    assert r == (k as real) / scale;
    assert r * scale == k as real;
    assert (r * scale).Floor == k;
    assert WholeUnits(r, scale);
  }

  lemma NegatedWholeUnits(r: real, scale: real)
    requires WholeUnits(r, scale)
    ensures WholeUnits(-r, scale)
  {
    var n := (r * scale).Floor;
    assert -r * scale == -(r * scale) == (-n) as real;
  }

  /** The nearest multiple of 1/scale, halves rounded up. */
  function RoundHalfUp(x: real, scale: real): real
    requires scale > 0.0
  {
    ((x * scale + 0.5).Floor as real) / scale
  }

  lemma RoundHalfUpNonNegative(x: real, scale: real)
    requires scale > 0.0 && x >= 0.0
    ensures RoundHalfUp(x, scale) >= 0.0
  {
    assert x * scale >= 0.0;
    DivOrder(0.0, (x * scale + 0.5).Floor as real, scale);
  }

  /** Rounding to one decimal never passes a whole number above the value. */
  lemma OneDecimalAtMost(x: real, n: int)
    requires x <= n as real
    ensures RoundHalfUp(x, 10.0) <= n as real
  {
    var f := (x * 10.0 + 0.5).Floor;
    assert f <= n * 10;
  }

  lemma RoundScaled(x: real, scale: real)
    requires scale > 0.0
    ensures x - 0.5 / scale < RoundHalfUp(x, scale) <= x + 0.5 / scale
  {
    var y := x * scale;
    var f := (y + 0.5).Floor as real;
    assert y - 0.5 < f <= y + 0.5;
    ShiftDivided(x, scale, -0.5);
    ShiftDivided(x, scale, 0.5);
    DivOrder(y - 0.5, f, scale);
    DivOrder(f, y + 0.5, scale);
  }

  lemma ShiftDivided(x: real, scale: real, d: real)
    requires scale > 0.0
    ensures (x * scale + d) / scale == x + d / scale
  {
    assert (x * scale) / scale == x;
    assert (x * scale + d) / scale == (x * scale) / scale + d / scale;
  }

  function Pow10(n: nat): (p: nat)
    ensures p >= 1
  {
    if n == 0 then 1 else 10 * Pow10(n - 1)
  }

  /** The state the page starts in: `resetRun(false)` with nothing loaded. */
  function Initial(choice: TimerChoice, custom: Option<int>): (s: Session)
    ensures Valid(s) && !s.inputEnabled && s.target == [] && !s.started
  {
    ResetRun(Session([], [], [], false, false, 0, 0.0, false), false, choice, custom)
  }

  /** The run is under way: started and not yet finished. */
  predicate Running(s: Session) {
    s.started && !s.finished
  }

  /** `startRun`: starts a run only when a text is loaded and no run has
      started since the last reset. */
  function StartRun(s: Session): (s': Session)
    ensures s.target == [] || s.started ==> s' == s
    ensures s.target != [] && !s.started ==> Running(s') && s'.inputEnabled
    ensures s'.target == s.target && s'.typed == s.typed && s'.fileName == s.fileName
    ensures s' == s || s' == s.(started := true, finished := false, inputEnabled := true)
  {
    if s.target == [] then s
    else if !s.started then s.(started := true, finished := false, inputEnabled := true)
    else s
  }

  /** The record `finishRun` offers to the store, from the stats of the run:
      whole speeds never below 0, accuracy in [0, 100] to one decimal, time to
      two decimals. */
  function CurrentRecord(st: Stats, seconds: real): (r: Record)
    ensures r.net >= 0 && r.gross >= 0
    ensures st.netWpm >= 0.0 ==> st.netWpm - 0.5 < r.net as real <= st.netWpm + 0.5
    ensures st.grossWpm >= 0.0 ==> st.grossWpm - 0.5 < r.gross as real <= st.grossWpm + 0.5
    ensures st.netWpm <= st.grossWpm ==> r.net <= r.gross
    ensures 0.0 <= r.acc <= 100.0
    ensures 0.0 <= st.accuracy <= 100.0 ==> st.accuracy - 0.05 < r.acc <= st.accuracy + 0.05
    ensures seconds >= 0.0 ==> 0.0 <= r.time && seconds - 0.005 < r.time <= seconds + 0.005
    ensures WholeUnits(r.acc, 10.0) && WholeUnits(r.time, 100.0)
  {
    var gross := Max(0, JsRound(st.grossWpm));
    var net := Max(0, JsRound(st.netWpm));
    assert st.netWpm <= st.grossWpm ==> JsRound(st.netWpm) <= JsRound(st.grossWpm);
    var acc := Clamp(st.accuracy, 0.0, 100.0);
    assert Pow10(1) == 10 && Pow10(2) == 100;
    OneDecimalAtMost(acc, 100);
    Record(net, gross, RoundTo(acc, 1), RoundTo(seconds, 2))
  }

  /** `finishRun`: only a running run can finish. It freezes the text area,
      computes the final statistics and rank, and stores for the file the
      better of its previous best record and this run's record. */
  function FinishRun(s: Session, seconds: real, store: Store): (o: Outcome)
    ensures !Running(s) ==> o == Outcome(s, store, None)
    ensures Running(s) ==> o.session == s.(finished := true, inputEnabled := false)
    ensures Running(s) ==> o.store.Keys == store.Keys + {s.fileName}
    ensures Running(s) ==> forall k :: k in store && k != s.fileName ==> o.store[k] == store[k]
    ensures Running(s) ==> o.summary.Some? && o.store[s.fileName] == o.summary.value.best
    ensures Running(s) ==> var sum := o.summary.value;
      && sum.stats == CalcStats(s.typed, s.target, seconds)
      && 0 <= sum.current.net <= sum.current.gross
      && 0.0 <= sum.acc <= 100.0 && 0.0 <= sum.errRate <= 100.0
      && (sum.best == sum.current || (s.fileName in store && sum.best == store[s.fileName]))
      && AtLeast(sum.best, sum.current)
      && (s.fileName in store ==> AtLeast(sum.best, store[s.fileName]))
    ensures Running(s) ==> var sum := o.summary.value;
      && sum.current.net == Max(0, JsRound(sum.stats.netWpm))
      && sum.current.gross == Max(0, JsRound(sum.stats.grossWpm))
      && sum.acc == Clamp(sum.stats.accuracy, 0.0, 100.0)
      && sum.errRate == Clamp(sum.stats.errorRate, 0.0, 100.0)
      && sum.current.acc == RoundTo(sum.acc, 1)
      && sum.current.time == RoundTo(seconds, 2)
      && sum.rank == GetRank(sum.current.net, sum.acc)
      && sum.best == Merge(if s.fileName in store then Some(store[s.fileName]) else None, sum.current)
  {
    if !s.started || s.finished then Outcome(s, store, None)
    else
      var st := CalcStats(s.typed, s.target, seconds);
      NetAtMostGross(s.typed, s.target, seconds);
      var cur := CurrentRecord(st, seconds);
      var prev := if s.fileName in store then Some(store[s.fileName]) else None;
      var best := Merge(prev, cur);
      MergeNeverWorse(prev, cur);
      var acc := Clamp(st.accuracy, 0.0, 100.0);
      var summary := Summary(st, cur, acc, Clamp(st.errorRate, 0.0, 100.0), GetRank(cur.net, acc), best);
      Outcome(s.(finished := true, inputEnabled := false), store[s.fileName := best], Some(summary))
  }

  /** `resetRun(keepFile)`, with the countdown length the timer selector
      gives: clears the run and restarts the countdown; without `keepFile`
      it also unloads the file and disables the text area. */
  function ResetRun(s: Session, keepFile: bool, choice: TimerChoice, custom: Option<int>): (s': Session)
    ensures !s'.started && !s'.finished && s'.typed == []
    ensures s'.countdownTotal == SelectedSeconds(choice, custom)
    ensures s'.countdownLeft == s'.countdownTotal as real
    ensures keepFile ==> s'.target == s.target && s'.fileName == s.fileName && (s'.inputEnabled <==> s.target != [])
    ensures !keepFile ==> s'.target == [] && s'.fileName == [] && !s'.inputEnabled
  {
    var total := SelectedSeconds(choice, custom);
    var cleared := s.(started := false, finished := false, typed := [],
                      countdownTotal := total, countdownLeft := total as real);
    if !keepFile then cleared.(target := [], fileName := [], inputEnabled := false)
    else cleared.(inputEnabled := s.target != [])
  }

  /** One frame of `updateLoop`, `seconds` after the start: while running it
      recomputes the countdown and finishes the run when it reaches zero. */
  function Tick(s: Session, seconds: real, store: Store): (o: Outcome)
    ensures !Running(s) ==> o == Outcome(s, store, None)
    ensures Running(s) ==> o.session.countdownLeft == MaxReal(0.0, s.countdownTotal as real - seconds)
    ensures Running(s) ==> (o.session.finished <==> o.session.countdownLeft <= 0.0)
    ensures Running(s) ==> (o.summary.Some? <==> o.session.countdownLeft <= 0.0)
    ensures Running(s) && o.session.countdownLeft <= 0.0 ==>
      o == FinishRun(s.(countdownLeft := 0.0), seconds, store)
    ensures Running(s) && o.session.countdownLeft > 0.0 ==>
      o == Outcome(s.(countdownLeft := o.session.countdownLeft), store, None)
  {
    if !s.started || s.finished then Outcome(s, store, None)
    else
      var left := MaxReal(0.0, s.countdownTotal as real - seconds);
      var s1 := s.(countdownLeft := left);
      if left <= 0.0 then FinishRun(s1, seconds, store)
      else Outcome(s1, store, None)
  }

  /** The text area's input handler: the new content with tabs expanded to
      four spaces; the first input of a loaded, not yet started run starts it.
      A disabled text area takes no input. */
  function OnInput(s: Session, value: string): (s': Session)
    ensures !s.inputEnabled ==> s' == s
    ensures s.inputEnabled ==> s'.typed == ExpandTabs(value)
    ensures s.inputEnabled ==> s'.target == s.target && s'.fileName == s.fileName
    ensures s.inputEnabled ==> s'.finished == s.finished && s'.inputEnabled
    ensures s.inputEnabled ==> s'.countdownTotal == s.countdownTotal && s'.countdownLeft == s.countdownLeft
    ensures s.inputEnabled ==> (s'.started <==> s.started || (!s.finished && s.target != []))
  {
    if !s.inputEnabled then s
    else
      var s1 := s.(typed := ExpandTabs(value));
      if !s1.started && !s1.finished && s1.target != [] then StartRun(s1) else s1
  }

  /** The text area's Tab key: four spaces replace the selection, as
      `v.slice(0, start) + "    " + v.slice(end)`. The handler assigns the
      value from script, so no input event follows: the typed text changes
      but the run does not start. A disabled text area takes no keys. */
  function OnTabKey(s: Session, start: nat, end: nat): (s': Session)
    ensures !s.inputEnabled ==> s' == s
    ensures s.inputEnabled ==> var a, b := Min(start, |s.typed|), Min(end, |s.typed|);
      && |s'.typed| == a + 4 + (|s.typed| - b)
      && s'.typed[..a] == s.typed[..a]
      && s'.typed[a..a + 4] == "    "
      && s'.typed[a + 4..] == s.typed[b..]
    ensures s'.(typed := s.typed) == s
  {
    if !s.inputEnabled then s
    else
      var v := s.typed;
      s.(typed := v[..Min(start, |v|)] + "    " + v[Min(end, |v|)..])
  }

  /** `loadFileByPath` once the file's text is known (fetched or cached):
      an empty path is ignored; otherwise the text becomes the target, the
      run is reset and the text area enabled. */
  function LoadFile(s: Session, path: string, text: string, choice: TimerChoice, custom: Option<int>): (s': Session)
    ensures path == [] ==> s' == s
    ensures path != [] ==> s'.fileName == path && s'.target == text && s'.inputEnabled
    ensures path != [] ==> !s'.started && !s'.finished && s'.typed == []
    ensures path != [] ==> s'.countdownTotal == SelectedSeconds(choice, custom)
    ensures path != [] ==> s'.countdownLeft == s'.countdownTotal as real
  {
    if path == [] then s
    else
      var s1 := s.(fileName := path, target := text);
      ResetRun(s1, true, choice, custom).(inputEnabled := true)
  }

  /** The timer selector's handlers: while no run has started, the countdown
      follows the selection; afterwards nothing changes. */
  function ChangeTimer(s: Session, choice: TimerChoice, custom: Option<int>): (s': Session)
    ensures s.started ==> s' == s
    ensures !s.started ==> s'.countdownTotal == SelectedSeconds(choice, custom)
    ensures !s.started ==> s'.countdownLeft == s'.countdownTotal as real
    ensures s'.(countdownTotal := s.countdownTotal, countdownLeft := s.countdownLeft) == s
  {
    if s.started then s
    else
      var total := SelectedSeconds(choice, custom);
      s.(countdownTotal := total, countdownLeft := total as real)
  }

  /** What can happen to the page. `TabKey` carries the selection bounds the
      key replaces; `Reset` is both the reset button and "try again"; `Frame`
      is one animation frame; `ReloadList` is reloading
      the file list, which unloads the current file first. The timer selection in
      force is carried by the events that read it. */
  datatype Event =
    | Load(path: string, text: string, choice: TimerChoice, custom: Option<int>)
    | Input(value: string)
    | TabKey(start: nat, end: nat)
    | StartClick
    | FinishClick(seconds: real)
    | Reset(choice: TimerChoice, custom: Option<int>)
    | Frame(seconds: real)
    | TimerChange(choice: TimerChoice, custom: Option<int>)
    | ReloadList(choice: TimerChoice, custom: Option<int>)

  /** The consistency the handlers keep: a run only starts on a loaded text,
      a finished run was started and takes no input, and a running run does. */
  predicate Valid(s: Session) {
    && (s.started ==> s.target != [])
    && (s.finished ==> s.started && !s.inputEnabled)
    && (Running(s) ==> s.inputEnabled)
  }

  /** One event. The store changes only when a run finishes, and then only
      the record of the current file, which never gets worse. */
  function Step(s: Session, store: Store, e: Event): (o: Outcome)
    ensures Valid(s) ==> Valid(o.session)
    ensures store.Keys <= o.store.Keys
    ensures forall k :: k in store ==> AtLeast(o.store[k], store[k])
    ensures forall k :: k in o.store && k != s.fileName ==> k in store && o.store[k] == store[k]
  {
    ForEachAtLeastItself(store);
    match e
    case Load(path, text, choice, custom) => Outcome(LoadFile(s, path, text, choice, custom), store, None)
    case Input(value) => Outcome(OnInput(s, value), store, None)
    case TabKey(start, end) => Outcome(OnTabKey(s, start, end), store, None)
    case StartClick => Outcome(StartRun(s), store, None)
    case FinishClick(seconds) => FinishRun(s, seconds, store)
    case Reset(choice, custom) => Outcome(ResetRun(s, true, choice, custom), store, None)
    case Frame(seconds) => Tick(s, seconds, store)
    case TimerChange(choice, custom) => Outcome(ChangeTimer(s, choice, custom), store, None)
    case ReloadList(choice, custom) => Outcome(ResetRun(s, false, choice, custom), store, None)
  }

  lemma ForEachAtLeastItself(store: Store)
    ensures forall k :: k in store ==> AtLeast(store[k], store[k])
  {
    forall k | k in store {
      AtLeastReflexive(store[k]);
    }
  }

  /** A sequence of events from a state and a store. Over any history the
      handlers stay consistent, no stored file is forgotten, and no stored
      best record ever gets worse. */
  function Run(s: Session, store: Store, es: seq<Event>): (r: (Session, Store))
    ensures Valid(s) ==> Valid(r.0)
    ensures store.Keys <= r.1.Keys
    ensures forall k :: k in store ==> AtLeast(r.1[k], store[k])
    decreases |es|
  {
    if es == [] then
      ForEachAtLeastItself(store);
      (s, store)
    else
      var o := Step(s, store, es[0]);
      var r := Run(o.session, o.store, es[1..]);
      forall k | k in store
        ensures AtLeast(r.1[k], store[k])
      {
        AtLeastTransitive(store[k], o.store[k], r.1[k]);
      }
      r
  }

  /** Once a run has finished, input, the Tab key, the start button, the
      finish button and animation frames change nothing: the result stays as
      it was. */
  lemma FinishedRunIsFrozen(s: Session, store: Store, e: Event)
    requires Valid(s) && s.finished
    requires e.Input? || e.TabKey? || e.StartClick? || e.FinishClick? || e.Frame?
    ensures Step(s, store, e) == Outcome(s, store, None)
  {
  }

  /** Finishing twice is finishing once: the second call changes nothing and
      shows no new result. */
  lemma FinishIdempotent(s: Session, seconds: real, later: real, store: Store)
    ensures var o := FinishRun(s, seconds, store);
      FinishRun(o.session, later, o.store) == Outcome(o.session, o.store, None)
  {
  }

  /** The countdown finishes the run exactly on the frame where the elapsed
      time reaches the countdown length, and not before. */
  lemma TickFinishesAtZero(s: Session, seconds: real, store: Store)
    requires Running(s)
    ensures Tick(s, seconds, store).session.finished <==> seconds >= s.countdownTotal as real
  {
  }

  /** On a loaded text that has not started, typed input starts the run but
      the Tab key does not, although it types four spaces at the caret. */
  lemma TabDoesNotStartButInputDoes(s: Session, value: string, start: nat, end: nat)
    requires Valid(s) && s.inputEnabled && !s.started && s.target != []
    ensures Running(OnInput(s, value))
    ensures !OnTabKey(s, start, end).started
    ensures start == end ==> |OnTabKey(s, start, end).typed| == |s.typed| + 4
  {
  }

  /** After a reset that keeps a loaded file, the next start begins a fresh
      run on the same text with the full countdown. */
  lemma ResetThenStart(s: Session, choice: TimerChoice, custom: Option<int>)
    requires s.target != []
    ensures var s' := StartRun(ResetRun(s, true, choice, custom));
      && Running(s') && s'.typed == [] && s'.target == s.target
      && s'.countdownLeft == SelectedSeconds(choice, custom) as real
  {
  }

  /** The first keystroke on a loaded text starts the run. */
  lemma FirstInputStarts(s: Session, value: string)
    requires s.inputEnabled && !s.started && !s.finished && s.target != []
    ensures var s' := OnInput(s, value);
      Running(s') && s'.typed == ExpandTabs(value)
  {
  }
}

=== FILE: stats.dfy ===
/**
 * `calcStats`: the live typing statistics. Counts are natural numbers; the
 * derived rates are exact reals (the source's floating-point values without
 * rounding error).
 */
module Stats {

  function Min(a: int, b: int): int { if a <= b then a else b }
  function Max(a: int, b: int): int { if a >= b then a else b }
  function MaxReal(a: real, b: real): real { if a >= b then a else b }

  /** Characters per word in the WPM convention. */
  const CharsPerWord: real := 5.0

  /** The floor under the elapsed minutes that keeps the rates finite. */
  const MinMinutes: real := 0.001

  datatype Stats = Stats(
    typedLen: nat,
    targetLen: nat,
    correct: nat,
    incorrect: nat,
    grossWpm: real,
    netWpm: real,
    accuracy: real,
    errorRate: real,
    progress: real)

  /** How many of the first `n` positions hold the same character in both texts. */
  function MatchCount(typed: string, target: string, n: nat): (c: nat)
    requires n <= |typed| && n <= |target|
    ensures c <= n
  {
    if n == 0 then 0
    else MatchCount(typed, target, n - 1) + (if typed[n - 1] == target[n - 1] then 1 else 0)
  }

  /** Reference definition of the correct count: the set of matching positions. */
  function MatchPositions(typed: string, target: string, n: nat): set<nat>
    requires n <= |typed| && n <= |target|
  {
    set i: nat | i < n && typed[i] == target[i]
  }

  /** Counting position by position gives the size of the set of matching positions. */
  lemma {:induction false} MatchCountIsCardinality(typed: string, target: string, n: nat)
    requires n <= |typed| && n <= |target|
    ensures MatchCount(typed, target, n) == |MatchPositions(typed, target, n)|
  {
    if n > 0 {
      MatchCountIsCardinality(typed, target, n - 1);
      var prev := MatchPositions(typed, target, n - 1);
      if typed[n - 1] == target[n - 1] {
        assert MatchPositions(typed, target, n) == prev + {n - 1};
      } else {
        assert MatchPositions(typed, target, n) == prev;
      }
    }
  }

  /** `max(0.001, seconds / 60)`: always positive. */
  function Minutes(seconds: real): (m: real)
    ensures m >= MinMinutes && m >= seconds / 60.0
  {
    MaxReal(MinMinutes, seconds / 60.0)
  }

  /** `r` words per minute over `minutes` minutes types `chars` characters. */
  predicate IsRate(r: real, chars: nat, minutes: real)
  {
    r * minutes * CharsPerWord == chars as real
  }

  /** `p` percent of `whole` is `part`. */
  predicate IsPercent(p: real, part: nat, whole: nat)
  {
    p * (whole as real) == 100.0 * part as real
  }

  /** `(chars / 5) / minutes`: the rate, in five-character words per minute,
      that types `chars` characters in `minutes`. */
  function WordsPerMinute(chars: nat, minutes: real): (r: real)
    requires minutes > 0.0
    ensures r >= 0.0
    ensures IsRate(r, chars, minutes)
  {
    var words := chars as real / CharsPerWord;
    assert words / minutes * minutes == words;
    words / minutes
  }

  /** `(part / whole) * 100`: the share of `whole` that `part` makes up, in percent. */
  function Percent(part: nat, whole: nat): (r: real)
    requires whole > 0
    ensures r >= 0.0
    ensures IsPercent(r, part, whole)
  {
    var fraction := part as real / whole as real;
    assert fraction * whole as real == part as real;
    fraction * 100.0
  }

  /** `calcStats(typed, target, seconds)`. Positions both texts share are
      correct or incorrect; every typed character past the end of the target
      is incorrect too, so the two counts split the typed text. */
  function CalcStats(typed: string, target: string, seconds: real): (s: Stats)
    ensures s.typedLen == |typed| && s.targetLen == |target|
    ensures s.correct <= Min(|typed|, |target|)
    ensures s.correct == |MatchPositions(typed, target, Min(|typed|, |target|))|
    ensures s.correct + s.incorrect == |typed|
    ensures s.incorrect == (Min(|typed|, |target|) - s.correct) + Max(0, |typed| - |target|)
    ensures IsRate(s.grossWpm, |typed|, Minutes(seconds))
    ensures IsRate(s.netWpm, s.correct, Minutes(seconds))
    ensures |typed| == 0 ==> s.accuracy == 100.0 && s.errorRate == 0.0
    ensures |typed| > 0 ==> IsPercent(s.accuracy, s.correct, |typed|)
    ensures |typed| > 0 ==> IsPercent(s.errorRate, s.incorrect, |typed|)
    ensures |target| == 0 ==> s.progress == 0.0
    ensures |target| > 0 ==> IsPercent(s.progress, Min(|typed|, |target|), |target|)
  {
    var typedLen := |typed|;
    var targetLen := |target|;
    var minLen := Min(typedLen, targetLen);
    var correct := MatchCount(typed, target, minLen);
    MatchCountIsCardinality(typed, target, minLen);
    var extra := Max(0, typedLen - targetLen);
    var incorrect := (minLen - correct) + extra;
    var minutes := Minutes(seconds);
    var gross := WordsPerMinute(typedLen, minutes);
    var net := WordsPerMinute(correct, minutes);
    var accuracy := if typedLen == 0 then 100.0 else Percent(correct, typedLen);
    var errorRate := if typedLen == 0 then 0.0 else Percent(incorrect, typedLen);
    var progress := if targetLen == 0 then 0.0 else Percent(minLen, targetLen);
    Stats(typedLen, targetLen, correct, incorrect, gross, net, accuracy, errorRate, progress)
  }

  /** Dividing by a positive number keeps the order of the dividends. */
  lemma DivOrder(a: real, b: real, m: real)
    requires m > 0.0
    ensures a <= b ==> a / m <= b / m
    ensures a < b ==> a / m < b / m
  {
    assert b / m - a / m == (b - a) / m;
  }

  lemma DivMonotone(a: real, b: real, m: real)
    requires 0.0 <= a <= b && m > 0.0
    ensures 0.0 <= a / m <= b / m
  {
    DivOrder(0.0, a, m);
    DivOrder(a, b, m);
  }

  lemma FractionBounds(a: real, b: real)
    requires 0.0 <= a <= b && b > 0.0
    ensures 0.0 <= (a / b) * 100.0 <= 100.0
    ensures (a / b) * 100.0 == 100.0 <==> a == b
  {
    DivMonotone(a, b, b);
    assert b / b == 1.0;
    if (a / b) * 100.0 == 100.0 {
      assert a / b == 1.0;
      assert a == (a / b) * b;
    }
  }

  /** With nothing typed the run counts as fully accurate and error-free,
      whatever the target and the time. */
  lemma EmptyTypedIsPerfect(target: string, seconds: real)
    ensures CalcStats([], target, seconds).accuracy == 100.0
    ensures CalcStats([], target, seconds).errorRate == 0.0
    ensures CalcStats([], target, seconds).grossWpm == 0.0
  {
  }

  /** Accuracy and error rate are percentages of the typed length that add
      up to 100; accuracy is 100 exactly when nothing typed is wrong. */
  lemma AccuracyAndErrorRate(typed: string, target: string, seconds: real)
    ensures var s := CalcStats(typed, target, seconds);
      && 0.0 <= s.accuracy <= 100.0
      && 0.0 <= s.errorRate <= 100.0
      && (|typed| > 0 ==> s.accuracy + s.errorRate == 100.0)
      && (s.accuracy == 100.0 <==> s.incorrect == 0)
  {
    var s := CalcStats(typed, target, seconds);
    if |typed| > 0 {
      var n := |typed| as real;
      var c := s.correct as real;
      var e := s.incorrect as real;
      assert s.accuracy == (c / n) * 100.0;
      assert s.errorRate == (e / n) * 100.0;
      FractionBounds(c, n);
      FractionBounds(e, n);
      SharesAddUp(c, e, n);
    }
  }

  lemma SharesAddUp(c: real, e: real, n: real)
    requires n > 0.0 && c + e == n
    ensures (c / n) * 100.0 + (e / n) * 100.0 == 100.0
  {
    assert c / n + e / n == (c + e) / n;
  }

  /** Progress is 0 for an empty target; otherwise it lies in [0, 100] and
      reaches 100 exactly when the typed text is at least as long as the target. */
  lemma ProgressBounds(typed: string, target: string, seconds: real)
    ensures var p := CalcStats(typed, target, seconds).progress;
      && (|target| == 0 ==> p == 0.0)
      && (|target| > 0 ==> 0.0 <= p <= 100.0 && (p == 100.0 <==> |typed| >= |target|))
  {
    if |target| > 0 {
      FractionBounds(Min(|typed|, |target|) as real, |target| as real);
    }
  }

  /** Typing more never lowers progress. */
  lemma ProgressMonotone(typed1: string, typed2: string, target: string, s1: real, s2: real)
    requires |typed1| <= |typed2|
    ensures CalcStats(typed1, target, s1).progress <= CalcStats(typed2, target, s2).progress
  {
    if |target| > 0 {
      var t := |target| as real;
      DivMonotone(Min(|typed1|, |target|) as real, Min(|typed2|, |target|) as real, t);
    }
  }

  /** Net speed counts only correct characters, so it never exceeds gross speed. */
  lemma NetAtMostGross(typed: string, target: string, seconds: real)
    ensures var s := CalcStats(typed, target, seconds);
      0.0 <= s.netWpm <= s.grossWpm
  {
    var s := CalcStats(typed, target, seconds);
    var m := Minutes(seconds);
    DivMonotone(s.correct as real, |typed| as real, CharsPerWord);
    DivMonotone(s.correct as real / CharsPerWord, |typed| as real / CharsPerWord, m);
  }
}

=== FILE: text.dfy ===
/**
 * The JavaScript string operations the typing tool relies on, over
 * `string == seq<char>`: `trimEnd`, `trim() === ""`, `replaceAll` with a
 * string pattern, `split`/`join` on a one-character separator, and the line
 * count shown on the file chip.
 */
module Text {

  /** ECMAScript WhiteSpace and LineTerminator code points: what `trim` and
      `trimEnd` remove. */
  predicate IsWhitespace(c: char) {
    || c == ' ' || c == '\t' || c == '\n' || c == '\r'
    || c == '\U{000B}' || c == '\U{000C}' || c == '\U{00A0}' || c == '\U{1680}'
    || ('\U{2000}' <= c <= '\U{200A}')
    || c == '\U{2028}' || c == '\U{2029}' || c == '\U{202F}' || c == '\U{205F}'
    || c == '\U{3000}' || c == '\U{FEFF}'
  }

  /** `s.trim() === ""`. */
  predicate IsBlank(s: string) {
    forall i :: 0 <= i < |s| ==> IsWhitespace(s[i])
  }

  /** `s.trimEnd()`: the longest prefix of `s` that does not end in whitespace. */
  function TrimEnd(s: string): (r: string)
    ensures r <= s
    ensures |r| == 0 || !IsWhitespace(r[|r| - 1])
    ensures forall i :: |r| <= i < |s| ==> IsWhitespace(s[i])
  {
    if |s| == 0 || !IsWhitespace(s[|s| - 1]) then s else TrimEnd(s[..|s| - 1])
  }

  /** The three properties in TrimEnd's contract determine its result. */
  lemma TrimEndUnique(s: string, p: string)
    requires p <= s
    requires |p| == 0 || !IsWhitespace(p[|p| - 1])
    requires forall i :: |p| <= i < |s| ==> IsWhitespace(s[i])
    ensures TrimEnd(s) == p
  {
  }

  /** Number of occurrences of `c` in `s`. */
  function CountChar(s: string, c: char): nat {
    if |s| == 0 then 0 else (if s[0] == c then 1 else 0) + CountChar(s[1..], c)
  }

  lemma {:induction false} CountCharConcat(a: string, b: string, c: char)
    ensures CountChar(a + b, c) == CountChar(a, c) + CountChar(b, c)
  {
    if |a| > 0 {
      assert (a + b)[1..] == a[1..] + b;
      CountCharConcat(a[1..], b, c);
    } else {
      assert a + b == b;
    }
  }

  lemma {:induction false} CountCharAbsent(s: string, c: char)
    ensures CountChar(s, c) == 0 <==> c !in s
  {
    if |s| > 0 {
      CountCharAbsent(s[1..], c);
      assert s == [s[0]] + s[1..];
    }
  }

  /** `s.replaceAll(pat, rep)` with a non-empty string pattern: a left-to-right
      scan that replaces non-overlapping occurrences. */
  function ReplaceAll(s: string, pat: string, rep: string): (r: string)
    requires |pat| > 0
    ensures |pat| == 1 ==> r == ReplaceChar(s, pat[0], rep)
    ensures !Occurs(s, pat) ==> r == s
    decreases |s|
  {
    if |s| < |pat| then s
    else if s[..|pat|] == pat then
      assert OccursAt(s, pat, 0);
      rep + ReplaceAll(s[|pat|..], pat, rep)
    else
      OccursInTail(s, pat);
      assert |pat| == 1 ==> s[..|pat|] == [s[0]] && pat == [pat[0]];
      [s[0]] + ReplaceAll(s[1..], pat, rep)
  }

  /** `pat` occurs in `s` at position `i`. */
  predicate OccursAt(s: string, pat: string, i: int) {
    0 <= i && i + |pat| <= |s| && s[i..i + |pat|] == pat
  }

  /** `pat` occurs somewhere in `s`. */
  predicate Occurs(s: string, pat: string) {
    exists i :: 0 <= i <= |s| && OccursAt(s, pat, i)
  }

  lemma OccursInTail(s: string, pat: string)
    requires |s| > 0
    ensures Occurs(s[1..], pat) ==> Occurs(s, pat)
  {
    if Occurs(s[1..], pat) {
      var i :| 0 <= i <= |s[1..]| && OccursAt(s[1..], pat, i);
      assert i + |pat| <= |s[1..]|;
      assert s[i + 1..i + 1 + |pat|] == s[1..][i..i + |pat|];
      assert OccursAt(s, pat, i + 1);
    }
  }

  /** Replacing every occurrence of one character, independently of the scan. */
  function ReplaceChar(s: string, c: char, rep: string): string {
    if |s| == 0 then [] else (if s[0] == c then rep else [s[0]]) + ReplaceChar(s[1..], c, rep)
  }

  lemma {:induction false} ReplaceCharConcat(a: string, b: string, c: char, rep: string)
    ensures ReplaceChar(a + b, c, rep) == ReplaceChar(a, c, rep) + ReplaceChar(b, c, rep)
  {
    if |a| > 0 {
      assert (a + b)[1..] == a[1..] + b;
      ReplaceCharConcat(a[1..], b, c, rep);
    } else {
      assert a + b == b;
    }
  }

  lemma {:induction false} ReplaceCharAbsent(s: string, c: char, rep: string)
    requires c !in s
    ensures ReplaceChar(s, c, rep) == s
  {
    if |s| > 0 {
      ReplaceCharAbsent(s[1..], c, rep);
      assert s == [s[0]] + s[1..];
    }
  }

  /** Removing `c` completely: the result holds no `c` when `rep` holds none,
      and every other character keeps its count. */
  lemma {:induction false} ReplaceCharCounts(s: string, c: char, rep: string, d: char)
    requires c !in rep
    ensures c !in ReplaceChar(s, c, rep)
    ensures d != c ==> CountChar(ReplaceChar(s, c, rep), d) == CountChar(s, d) + CountChar(s, c) * CountChar(rep, d)
  {
    if |s| > 0 {
      var rest := ReplaceChar(s[1..], c, rep);
      ReplaceCharCounts(s[1..], c, rep, d);
      var head := if s[0] == c then rep else [s[0]];
      assert ReplaceChar(s, c, rep) == head + rest;
      CountCharConcat(head, rest, d);
      assert c !in head;
      if d != c {
        var k := CountChar(rep, d);
        if s[0] == c {
          assert CountChar(s, c) == CountChar(s[1..], c) + 1;
          assert CountChar(s[1..], c) * k + k == CountChar(s, c) * k;
        } else {
          assert CountChar(s, c) == CountChar(s[1..], c);
        }
      }
    }
  }

  /** The CRLF normalization `replaceAll("\r\n", "\n")`: it deletes exactly
      the carriage returns that a line feed follows. */
  function NormalizeNewlines(s: string): (r: string)
    ensures r == DropCrBeforeLf(s)
  {
    CrLfScanDropsCr(s);
    ReplaceAll(s, "\r\n", "\n")
  }

  /** Independent reference: every character kept except a carriage return
      directly followed by a line feed. */
  function DropCrBeforeLf(s: string): string {
    if |s| == 0 then []
    else if s[0] == '\r' && |s| >= 2 && s[1] == '\n' then DropCrBeforeLf(s[1..])
    else [s[0]] + DropCrBeforeLf(s[1..])
  }

  /** The left-to-right scan for `"\r\n"` agrees with the reference. */
  lemma {:induction false} CrLfScanDropsCr(s: string)
    ensures ReplaceAll(s, "\r\n", "\n") == DropCrBeforeLf(s)
    decreases |s|
  {
    if |s| >= 2 {
      if s[..2] == "\r\n" {
        CrLfScanDropsCr(s[2..]);
        assert s[1..][1..] == s[2..];
        assert DropCrBeforeLf(s[1..]) == "\n" + DropCrBeforeLf(s[2..]);
      } else {
        CrLfScanDropsCr(s[1..]);
        assert !(s[0] == '\r' && s[1] == '\n');
      }
    } else if |s| == 1 {
      assert DropCrBeforeLf(s[1..]) == [];
    }
  }

  /** Normalizing line endings neither adds nor removes a line feed. */
  lemma {:induction false} NormalizeKeepsLineFeeds(s: string)
    ensures CountChar(NormalizeNewlines(s), '\n') == CountChar(s, '\n')
    decreases |s|
  {
    if |s| >= 2 {
      if s[..2] == "\r\n" {
        NormalizeKeepsLineFeeds(s[2..]);
        CountCharConcat("\n", NormalizeNewlines(s[2..]), '\n');
        assert s == "\r\n" + s[2..];
        CountCharConcat("\r\n", s[2..], '\n');
      } else {
        NormalizeKeepsLineFeeds(s[1..]);
        CountCharConcat([s[0]], NormalizeNewlines(s[1..]), '\n');
      }
    }
  }

  /** `replaceAll("\t", "    ")`: every tab becomes four spaces. */
  function ExpandTabs(s: string): (r: string)
    ensures r == ReplaceChar(s, '\t', "    ")
    ensures '\t' !in r
    ensures |r| == |s| + 3 * CountChar(s, '\t')
    ensures CountChar(r, '\n') == CountChar(s, '\n')
  {
    ReplaceCharCounts(s, '\t', "    ", '\n');
    ReplaceCharLength(s, '\t', "    ");
    ReplaceAll(s, "\t", "    ")
  }

  lemma {:induction false} ReplaceCharLength(s: string, c: char, rep: string)
    ensures |ReplaceChar(s, c, rep)| == |s| + CountChar(s, c) * (|rep| - 1)
  {
    if |s| > 0 {
      ReplaceCharLength(s[1..], c, rep);
    }
  }

  /** `s.split(d)` for a one-character separator: never empty, and no piece
      holds the separator. */
  function Split(s: string, d: char): (r: seq<string>)
    ensures |r| >= 1
    ensures forall i :: 0 <= i < |r| ==> d !in r[i]
  {
    if |s| == 0 then [[]]
    else if s[0] == d then [[]] + Split(s[1..], d)
    else
      var rest := Split(s[1..], d);
      [[s[0]] + rest[0]] + rest[1..]
  }

  /** `lines.join(d)`: empty for no lines, otherwise it starts with the
      first line, and separator-free lines are joined by exactly one
      separator between each pair. */
  function Join(lines: seq<string>, d: char): (r: string)
    ensures |lines| == 0 ==> r == []
    ensures |lines| > 0 ==> lines[0] <= r
    ensures |lines| > 0 && (forall i :: 0 <= i < |lines| ==> d !in lines[i]) ==> CountChar(r, d) == |lines| - 1
  {
    if |lines| == 0 then []
    else if |lines| == 1 then
      CountCharAbsent(lines[0], d);
      lines[0]
    else
      var rest := Join(lines[1..], d);
      CountCharAbsent(lines[0], d);
      CountCharConcat(lines[0], [d], d);
      CountCharConcat(lines[0] + [d], rest, d);
      assert forall i :: 0 <= i < |lines[1..]| ==> lines[1..][i] == lines[i + 1];
      lines[0] + [d] + rest
  }

  /** Splitting yields one more piece than there are separators. */
  lemma {:induction false} SplitCount(s: string, d: char)
    ensures |Split(s, d)| == CountChar(s, d) + 1
  {
    if |s| > 0 {
      SplitCount(s[1..], d);
    }
  }

  /** Join undoes Split. */
  lemma {:induction false} JoinSplit(s: string, d: char)
    ensures Join(Split(s, d), d) == s
  {
    if |s| > 0 {
      JoinSplit(s[1..], d);
      var rest := Split(s[1..], d);
      if s[0] == d {
        assert Split(s, d) == [[]] + rest;
        assert ([[]] + rest)[1..] == rest;
        assert s == [] + [d] + s[1..];
      } else {
        var r := Split(s, d);
        assert r[0] == [s[0]] + rest[0];
        assert r[1..] == rest[1..];
        if |rest| == 1 {
          assert s == [s[0]] + rest[0];
        } else {
          assert Join(rest, d) == rest[0] + [d] + Join(rest[1..], d);
          assert s == [s[0]] + (rest[0] + [d] + Join(rest[1..], d));
        }
      }
    }
  }

  lemma {:induction false} SplitNoSeparator(a: string, d: char)
    requires d !in a
    ensures Split(a, d) == [a]
  {
    if |a| > 0 {
      SplitNoSeparator(a[1..], d);
      assert a == [a[0]] + a[1..];
    }
  }

  lemma {:induction false} SplitAfterPiece(a: string, b: string, d: char)
    requires d !in a
    ensures Split(a + [d] + b, d) == [a] + Split(b, d)
  {
    if |a| == 0 {
      assert a + [d] + b == [d] + b;
      assert ([d] + b)[1..] == b;
    } else {
      assert (a + [d] + b)[1..] == a[1..] + [d] + b;
      SplitAfterPiece(a[1..], b, d);
      assert a == [a[0]] + a[1..];
    }
  }

  /** Split undoes Join on a non-empty list of separator-free lines. */
  lemma {:induction false} SplitJoin(lines: seq<string>, d: char)
    requires |lines| >= 1
    requires forall i :: 0 <= i < |lines| ==> d !in lines[i]
    ensures Split(Join(lines, d), d) == lines
  {
    if |lines| == 1 {
      SplitNoSeparator(lines[0], d);
    } else {
      SplitJoin(lines[1..], d);
      SplitAfterPiece(lines[0], Join(lines[1..], d), d);
      assert [lines[0]] + lines[1..] == lines;
    }
  }

  /** `countLines`: 0 for the empty string, else the number of pieces of
      `split("\n")`, which is one more than the number of line feeds. */
  function CountLines(s: string): (n: nat)
    ensures n == (if |s| == 0 then 0 else CountChar(s, '\n') + 1)
  {
    SplitCount(s, '\n');
    if |s| == 0 then 0 else |Split(s, '\n')|
  }
}

=== FILE: wrappers.dfy ===
/** Optional values: an absent stored record, a value that failed to parse. */
module Wrappers {

  datatype Option<+T> = None | Some(value: T) {

    /** Returns the value in Some, or `default` when None. */
    function GetOr(default: T): T {
      match this
      case Some(v) => v
      case None => default
    }
  }
}
